=== FILE: README.md ===
# oath-exec, modelled in Dafny

oath-exec guards a program behind a time-based one-time password. It reads
a small `key = value` config file (`type`, `secret`, `digits`), prints a
`TOTP: ` prompt (`HOTP: ` when the config names no type), reads one attempt from standard input, asks liboath to
validate it against the base32-decoded secret, zeroes the attempt and the
secret, and, only when the attempt was accepted, replaces itself with the
program named after `--`. With `-g bytes` it instead prints a fresh random
secret in base32.

This project models the byte-level logic of `oath-exec.c`:

- `common.dfy` (`Common`): Option and Result, a `byte` type, the result of a
  read(2) call, and `Clamp`, which keeps a read from delivering more than it
  asked for.
- `ctext.dfy` (`CText`): NUL-terminated strings, the blanks the scanner
  nulls, strcasecmp in the C locale, and strtoul in base 10. strtoul is
  modelled as glibc implements it for a 64-bit `unsigned long`, together
  with the 32-bit truncation of storing its result into an `int`.
- `config.dfy` (`ConfigParse`): read_config. This covers:
  - the in-place scanner, with its comment latch and value pointer;
  - the interpretation of one key/value pair;
  - the step that scans, interprets and compacts one line;
  - the inner and outer do-while loops, both as functions and as methods with loop invariants;
  - the end of file.
- `config_props.dfy` (`ConfigProps`): a reference reading of one line that
  makes no in-place writes, a proof that the scanner agrees with it, and
  the properties of keys, values, comments, lines without `=`, and the end
  of input.
- `findings.dfy` (`ConfigFindings`): the two read_config defects listed
  under Findings. Each one is shown on the code as written, and the
  corrected scanner is proved free of it. For the first, it also proves
  where a read boundary is harmless even as written: wherever no line is
  pending past its `=`.
- `secretgen.dfy` (`SecretGen`): the `-g` argument conversion, the length
  bound, the read loop on `/dev/random`, and the printed line.
- `gate.dfy` (`Gate`): main. This covers:
  - the post-getopt usage check;
  - the prompt;
  - the one read of the attempt and its trimming loop;
  - validation with the fixed policy (30-second steps from 0, a window of 2);
  - the scrubbing of the attempt and the secret;
  - the decision, and the argv handed to execvp.

The scanner has two modes, `ScanMode`:
- `AsWritten` follows the code byte for byte, including the NULs a pass
  that finds no terminator leaves behind, and the end-of-file `\n` stored
  outside the scanned range.
- `Corrected` repairs both of those.

Every other behaviour is the same in both modes. main's driver,
`Gate.RunOathExec`, takes the mode as a parameter. In the corrected mode it
also uses the range-checked `-g` conversion.

These outside parts are parameters of the model:
- the liboath calls (the base32 decoder and encoder, and `oath_totp_validate`);
- the clock;
- each read(2) result, as the next element of a sequence (past the end, every read reports end of file);
- whether `oath_init` succeeds;
- how the getopt loop ended.

Where the documented behaviour of oath-exec and its code disagree, the
model follows the code:
- A line longer than the 1023-byte buffer is not fatal. A full buffer
  makes the next read ask for 0 bytes, and parsing ends there
  (`FullBufferEndsParse`).
- A final line without `\n` is not taken as terminated by end of file. It
  is ignored (`EndOfFileIgnoresTail`, `FinalLineIgnored`).
- The secret is not zeroed on every exit path. When the attempt cannot be
  read, main exits without scrubbing (`NoAttemptNoValidation`). A parse
  error after a decoded secret does not scrub it either.
- `-g` accepts 0 and numbers beyond 1024 at the argument stage. The bound
  check and the read loop reject them later. Values beyond the range of an
  `int` wrap around (Finding 3).
- The test `valid != OATH_INVALID_OTP` next to `valid >= 0` is redundant,
  because OATH_INVALID_OTP is negative (`AcceptedIffNonNegative`).
- Keys are not stripped of leading blanks. A line that starts with a blank
  has the empty key. If the line also holds an `=`, reading the file fails
  with an unknown item (`LeadingBlankLineFails`). An indented line without
  `=`, such as a blank-only line or an indented comment, is ignored
  (`LineWithoutEqualsIgnored`).
- Blanks after a value are kept. `type = TOTP # remark` leaves `TOTP ` as
  the value, so reading the file fails with an unsupported type
  (`TypeWithTrailingBlankFails`). `digits = 6 ` fails the same way
  (`TrailingBlankNotANumber`).

## Model

| member | source | states |
|---|---|---|
| `ConfigParse.Interpret` | oath-exec.c:103-129 | only the item named (case-insensitively) by the key changes. `type` succeeds exactly when the value is TOTP in any case, setting the type to TOTP, and otherwise fails with UnsupportedType. `secret` succeeds exactly when the decoder accepts the value, storing the decoded bytes, and otherwise fails with the decoder's code. `digits` succeeds exactly when strtoul consumes the whole value without ERANGE, storing its result cut to an int, and otherwise fails with BadNumber. Any other key is an UnknownItem error |
| `ConfigParse.Visit` | oath-exec.c:85-94 | one byte outside a comment that does not end the line: only that byte may change, and only to NUL; the value start never passes the next index |
| `ConfigParse.ScanFrom` | oath-exec.c:80-137 | a pass stops at the first byte that ends the line under the comment latch, setting the latch exactly when that byte is `#`, or reports that there is none; the buffer keeps its length; inside a comment the value start is untouched |
| `ConfigParse.ScanKeepsPrefix` | oath-exec.c:80-137 | a pass never rewrites the bytes before the index it starts from |
| `ConfigParse.ScanWritesNul` | oath-exec.c:85-101 | every byte a pass changes becomes NUL |
| `ConfigParse.ScanStopsAtTerminator` | oath-exec.c:95-135 | a terminated pass nulls the terminator and leaves every later byte alone |
| `ConfigParse.ScanSkipsComment` | oath-exec.c:81-83 | inside a comment a pass changes no byte except the terminating `\n` |
| `ConfigParse.LineStep` | oath-exec.c:76-138 | a consumed line leaves exactly the bytes after its terminator, which is the first line-ending byte; the latch records whether it was `#`; a pass stalls exactly when no terminator is present |
| `ConfigParse.Drain` | oath-exec.c:76-138 | the inner loop never grows the buffer and stops with no line-ending byte left in it |
| `ConfigProps.StalledScan` | oath-exec.c:80-94 | a pass that finds no terminator leaves, outside a comment, the blanks before the first `=` and that `=` nulled and every other byte kept; inside a comment it changes nothing |
| `ConfigProps.StalledStep` | oath-exec.c:76-138 | a pass that finds no terminator keeps the parser in the corrected mode and, as written, keeps the nulled bytes |
| `ConfigProps.DrainIsReference` | oath-exec.c:76-138 | in both modes the inner loop is the reference loop that takes reference lines until no terminator is left: the same error, or the same config, latch and leftover bytes, which as written are nulled as a stalled pass nulls them |
| `ConfigProps.DrainModesAgree` | oath-exec.c:76-138 | the two modes fail alike with the same error, or succeed alike with the same config, comment latch and buffer length |
| `ConfigParse.DrainLines` | oath-exec.c:76-138 | the imperative inner loop computes Drain and leaves no line-ending byte |
| `ConfigParse.EndOfFile` | oath-exec.c:70-75 | success carries a non-empty secret; as written, a buffer with no line-ending byte left is never interpreted and the result is decided by the config so far; corrected, the stored `\n` closes an open comment and changes nothing else |
| `ConfigParse.CommentClosedAtEnd` | oath-exec.c:70-83 | corrected: inside a comment, the `\n` stored at end of file closes the comment and leaves an empty buffer with the config unchanged |
| `ConfigParse.Finish` | oath-exec.c:141-146 | success exactly when a non-empty secret was decoded, with the config unchanged; otherwise NoSecret |
| `ConfigParse.ReadLoop` | oath-exec.c:63-139 | the outer loop succeeds only with a non-empty secret; a read that fails makes it fail with ReadError |
| `ConfigParse.ReadConfig` | oath-exec.c:57-69 | an unopenable file fails with CantOpen; a first read that fails gives ReadError; success carries a non-empty secret |
| `ConfigParse.ReadConfigLoop` | oath-exec.c:57-152 | the nested read and drain loops compute ReadConfig |
| `ConfigProps.ScanSplitsLine` | oath-exec.c:85-94 | outside a comment, the key and value handed to the interpretation are those of the reference split of the line |
| `ConfigProps.LineStepIsReference` | oath-exec.c:80-135 | in both modes the in-place step equals the reference step that works on the original bytes |
| `ConfigProps.StalledScanNullsEquals` | oath-exec.c:92-94 | a pass that finds no terminator has still nulled the line's first `=` |
| `ConfigProps.CommentSkipsToNewline` | oath-exec.c:81-83 | inside a comment the line up to the next `\n` is dropped uninterpreted, and the comment closes |
| `ConfigProps.HashEndsLineAndOpensComment` | oath-exec.c:95-101 | `#` ends the line like `\n`, the text before it is interpreted, and the latch is set |
| `ConfigProps.LineWithoutEqualsIgnored` | oath-exec.c:92-103 | a line with no `=` leaves the config unchanged; the buffer keeps exactly the bytes after the terminator (oath-exec.c:131-134) |
| `ConfigProps.SplitOfJoinedLine` | oath-exec.c:85-94 | key, blanks, `=`, blanks, value come apart into that key and that value; later blanks and `=` stay in the value |
| `ConfigProps.LeadingBlankEmptyKey` | oath-exec.c:85-88 | a line starting with a blank has the empty key |
| `ConfigProps.LeadingBlankLineFails` | oath-exec.c:85-127 | a line that starts with a blank and has an `=` fails as an UnknownItem with the empty key |
| `ConfigProps.TypeWithTrailingBlankFails` | oath-exec.c:92-110 | a `type` value ending in a blank, as the one before a trailing `# remark` does, fails with UnsupportedType |
| `ConfigProps.KeyCaseInsensitive` | oath-exec.c:104-117 | keys strcasecmp calls equal have the same effect |
| `ConfigProps.TypeAcceptsTotpOnly` | oath-exec.c:104-110 | `type` accepts TOTP in any case and rejects every other value |
| `ConfigProps.DigitsStoredUnchecked` | oath-exec.c:117-124 | any decimal number is stored as `digits`, with no range check, truncated to an int |
| `ConfigProps.DigitsStoredNegative` | oath-exec.c:117-124 | `digits = -n`, for n up to 2^31, is accepted and stores -n |
| `ConfigProps.DigitsStoredEmpty` | oath-exec.c:117-124 | an empty `digits` value is accepted and stores 0 |
| `ConfigProps.DigitsRejected` | oath-exec.c:117-124 | a number followed by a non-digit, or one beyond ULONG_MAX, fails with BadNumber |
| `ConfigProps.TrailingBlankNotANumber` | oath-exec.c:119-123 | a `digits` value ending in a blank is rejected |
| `ConfigProps.ReadLoopPlausible` | oath-exec.c:63-139 | every secret the loop keeps came out of the decoder, and the type is never HOTP |
| `ConfigProps.ReadConfigSucceedsOnlyWithDecodedSecret` | oath-exec.c:141-146 | success implies a non-empty secret produced by the decoder and a type that is unset or TOTP |
| `ConfigProps.EndOfFileIgnoresTail` | oath-exec.c:70-80 | as written, bytes left at end of file are never interpreted |
| `ConfigProps.FullBufferEndsParse` | oath-exec.c:66 | with pos at 1023 the next read asks for 0 bytes and parsing ends whatever the file still holds |
| `ConfigFindings.DrainLine` | oath-exec.c:95-135 | a line and its `\n` drain to an empty buffer after the line's effect on the config |
| `ConfigFindings.SecretLineRead` | oath-exec.c:62 | a file holding one decodable `secret` line yields that secret, `digits` 6 and an unset type |
| `ConfigFindings.SplitLineDropped` | oath-exec.c:92-94 | as written, a `secret` line split after its `=` across two reads is lost, though read whole it is kept |
| `ConfigFindings.DrainAppend` | oath-exec.c:76-138 | corrected: draining after appending bytes is draining, appending, and draining again |
| `ConfigFindings.ReadBoundaryIrrelevant` | oath-exec.c:63-139 | corrected: reading `a` then `b` gives the same result as reading `a + b` |
| `ConfigFindings.SplitLineKept` | oath-exec.c:92-94 | corrected: the split `secret` line is kept |
| `ConfigFindings.ReferenceDrainAppend` | oath-exec.c:76-138 | the reference inner loop after appending bytes is the loop, then appending, then the loop again |
| `ConfigFindings.StallInvisible` | oath-exec.c:85-94 | as written, the NULs a stalled pass leaves over bytes with no `=` change nothing a later drain does, whatever bytes follow |
| `ConfigFindings.DrainAppendAsWritten` | oath-exec.c:76-138 | as written, when the bytes left after the last terminator hold no `=` (or a comment is open), draining after appending is draining, appending, and draining again |
| `ConfigFindings.ReadBoundaryAsWritten` | oath-exec.c:63-139 | as written, reading `a` then `b` gives the same result as reading `a + b` whenever the bytes of the buffer plus `a` after its last terminator hold no `=` |
| `ConfigFindings.SplitKeyKept` | oath-exec.c:85-94 | as written, a `secret` line split inside its key, before the `=`, is kept |
| `ConfigFindings.FinalLineIgnored` | oath-exec.c:70-80 | as written, a last `secret` line without `\n` gives NoSecret, and with `\n` gives the secret |
| `ConfigFindings.FinalNewlineOptional` | oath-exec.c:70-80 | corrected: a missing final `\n` makes no difference |
| `ConfigFindings.FinalLineRead` | oath-exec.c:70-80 | corrected: a last `secret` line without `\n` yields its secret |
| `CText.CaseEqual` | oath-exec.c:104-119 | strcasecmp in the C locale calls two NUL-free strings equal exactly when they have the same length and agree byte by byte after tolower; `CaseEqualSymmetric` and `CaseEqualTransitive` state that it is an equivalence |
| `CText.CString` | oath-exec.c:104 | the C string at a position is the NUL-free run up to the first NUL or the end |
| `CText.Strtoul` | oath-exec.c:120 | the end offset stays in the string and the value within ULONG_MAX |
| `CText.StrtoulDecimal` | oath-exec.c:120 | strtoul reads back every representable number from its decimal digits, consuming them all |
| `CText.StrtoulSigned` | oath-exec.c:120 | after leading isspace bytes and an optional sign, strtoul consumes a number's digits up to the first non-digit; above ULONG_MAX it yields ULONG_MAX with ERANGE whatever the sign; otherwise a minus sign negates modulo 2^64 |
| `CText.StrtoulNegative` | oath-exec.c:120 | `-` followed by a representable number is consumed whole and negated modulo 2^64 |
| `CText.StrtoulNoDigits` | oath-exec.c:120 | with no digit after the leading isspace bytes and the optional sign, nothing is converted: value 0, `end` at the start, no ERANGE |
| `CText.NegatedToCInt` | oath-exec.c:120 | a magnitude up to 2^31, negated modulo 2^64 and stored into an int, is the negative number |
| `CText.ToCInt` | oath-exec.c:120 | storing into an int yields a 32-bit value congruent to the unsigned long modulo 2^32 |
| `SecretGen.GenLength` | oath-exec.c:231-234 | `-g` is accepted exactly when strtoul consumes the whole argument without ERANGE; the int is congruent to the number modulo 2^32 |
| `SecretGen.LengthWrapsAround` | oath-exec.c:232 | as written, `-g 4294967306` becomes a length of 10 |
| `SecretGen.GenLengthChecked` | oath-exec.c:231-234 | corrected: a number beyond INT_MAX is refused, and an accepted one is kept exactly |
| `SecretGen.CheckedLengthExact` | oath-exec.c:231-234 | corrected: `-g n` yields n for every n an int holds, and refuses every larger n |
| `SecretGen.ExceedsBuffer` | oath-exec.c:165 | the size_t comparison rejects exactly the negative lengths and those over 1024 |
| `SecretGen.ReadRandom` | oath-exec.c:175-186 | the loop succeeds exactly when 0 < len and the source delivers len bytes before failing or reaching EOF; it returns the first len bytes; otherwise it reports the read that stopped it, which for len 0 is the first read: a failure, or else end of file |
| `SecretGen.Generate` | oath-exec.c:154-200 | success exactly when the length is in 1..1024, the source opens and delivers, and the encoder succeeds; it prints the encoding and a newline. A length out of bounds fails with TooLong, an unopenable source with CantOpenRandom, a short stream with the read that ended it, length 0 with the first read's failure or end of file, and an encoder failure with its code |
| `Gate.Prompt` | oath-exec.c:260 | the prompt is `TOTP: ` for a TOTP config and `HOTP: ` otherwise |
| `Gate.FirstCrLf` | oath-exec.c:269-274 | the index of the first CR or LF, or the length |
| `Gate.OtpBuffer` | oath-exec.c:213 | the zero-initialised 1024-byte buffer holds the bytes read at its start |
| `Gate.TrimAttempt` | oath-exec.c:269-274 | the loop nulls the first CR or LF among the bytes read and changes nothing else |
| `Gate.Attempt` | oath-exec.c:263-274 | the attempt is a prefix of the bytes before the first CR or LF, holds no NUL, CR or LF, and is NUL-terminated inside the buffer |
| `Gate.BuildArgv` | oath-exec.c:293-298 | the child argv is `argv[optind..]` in order followed by NULL |
| `Gate.AuthorizeSteps` | oath-exec.c:249-309 | the imperative gate computes the functional one |
| `Gate.LengthArg` | oath-exec.c:231-234 | the `-g` length is an int, and a refused argument is a BadLength error; as written it is strtoul cut to 32 bits (`GenLength`), corrected it is the range-checked conversion (`GenLengthChecked`) |
| `Gate.LengthArgWrapsAround` | oath-exec.c:231-239 | main as written turns `-g 4294967306` into a length of 10, which the corrected conversion refuses |
| `Gate.RunOathExec` | oath-exec.c:220-253 | library-init failure and unknown options fail; `-c` runs the gate. For `-g`, a refused argument is a usage error; otherwise a line is printed exactly when generate_random_b32 succeeds for the converted length, and it is the encoding followed by a newline; an out-of-bounds length, an unopenable source and a short stream fail with generate_random_b32's tag; `-g` shows no prompt and makes no validation call. A printed line comes only from `-g`, an exec only from the gate and only after a validation call |
| `Gate.ExecIffAccepted` | oath-exec.c:276-290 | the child runs exactly when a config file and a program are given, a TOTP config was read, a non-empty attempt was read, and the validator's result on the secret, the clock, step 30, start 0, window 2 and the trimmed attempt is non-negative and not OATH_INVALID_OTP |
| `Gate.TotpAttemptValidated` | oath-exec.c:263-290 | with a TOTP config and a non-empty read, the `TOTP: ` prompt is shown, the validator is called on the secret, the clock, step 30, start 0, window 2 and the trimmed attempt, memory is scrubbed, and the child runs with the argv tail exactly when that verdict is accepted; otherwise the verdict is the failure status |
| `Gate.ValidationPolicy` | oath-exec.c:263-281 | the validator sees the secret, the clock, step 30, start 0, window 2 and the trimmed attempt, and only after a non-empty read |
| `Gate.ExecArgv` | oath-exec.c:289-305 | an exec's argv is the argv tail from optind, starting with the program, ending in NULL |
| `Gate.Accepted` | oath-exec.c:291 | a verdict runs the child exactly when it is non-negative and not OATH_INVALID_OTP |
| `Gate.AcceptedIffNonNegative` | oath-exec.c:291 | since OATH_INVALID_OTP is negative, a verdict is accepted exactly when it is non-negative |
| `Gate.Decide` | oath-exec.c:260-290 | the prompt names the configured type; memory is scrubbed, with a 1024-byte NUL attempt buffer and an all-zero secret, exactly when a non-empty attempt was read, and otherwise the run fails with no validation; only a TOTP config is validated; the child runs on the argv tail exactly when a TOTP verdict is accepted; otherwise the failure carries the verdict, OATH_INVALID_OTP for a config of any other type |
| `Gate.Authorize` | oath-exec.c:249-260 | without a config file or a program the run ends with the usage error and nothing else; a config that fails to read ends it with that error before any prompt; a config that reads gives the prompt for its type |
| `Gate.ScrubbedBeforeDecision` | oath-exec.c:255-289 | a scrub is recorded whenever the validator was called, the child runs, or the attempt was rejected as invalid, and whenever a config was read and a non-empty attempt followed, whatever the type; the recorded attempt buffer is 1024 NULs and the recorded secret all zeros, as long as the validated secret |
| `Gate.UnsetTypeNeverExecs` | oath-exec.c:260-289 | a config without a `type` line never runs the child, and the validator is not called; with a program and a non-empty attempt, the prompt is `HOTP: `, memory is scrubbed, and the run fails with OATH_INVALID_OTP |
| `Gate.NoAttemptNoValidation` | oath-exec.c:263-267 | a failed or empty read ends the run without validation, without exec, and without scrubbing |

## Left out

- The liboath library (`oath_init`, `oath_done`, `oath_strerror`, the base32 decoder and encoder, `oath_totp_validate`) is not part of this model. Each is a parameter: a success flag, a `Decoder`, an `Encoder` and a `Validator`.
- `time(NULL)` is an input (`World.now`).
- open, read, close, printf, fflush and perror are not modelled as I/O. Each read result is the next element of a sequence, open failure is a datatype case, and diagnostics are error tags.
- getopt is not modelled. Its outcome is the `Options` input: the last `-c` value with optind, `-g` with its argument, or an unknown option. GNU argument permutation is not modelled.
- malloc failure and execvp failure are not modelled. An exec is recorded as `Exec(argv)`, and a failing execvp would still end in failure.
- Whether the compiler may elide the memset calls is a memory-level question the value model cannot express.
- The leak of an earlier secret when `secret` appears twice is not modelled. The model keeps only the latest decoded secret.
- On the length-bound path, generate_random_b32 calls `close(fd)` on a descriptor it never opened. That call is not modelled. Descriptor handling on the other exit paths is not modelled either.
- The config file and the attempt are sequences of Dafny `char`, not of 8-bit bytes. Every property stated holds for any character, so it holds for bytes too; what this leaves out is the `signed char` range of a C `char`, which no code path here depends on.
- Bytes beyond `pos` in the C arrays are never scanned and are not modelled. The buffer is the sequence of its first `pos` bytes.

## Findings

| source | as written | input that shows it | evidently intended | confidence | as-written member | corrected member |
|---|---|---|---|---|---|---|
| oath-exec.c:92-94 | a pass that finds no terminator keeps the NUL it wrote over the line's `=`, so when the rest of the line arrives the line has no value and is ignored | a config file whose 1023-byte read ends between the `=` and the `\n` of the `secret` line: reads `secret=AB` then `CD\n` give "No secret defined" | a line is interpreted the same wherever a read boundary falls | high (not executed) | `ConfigFindings.SplitLineDropped` | `ConfigFindings.SplitLineKept` |
| oath-exec.c:70-80 | at end of file `\n` is stored at `filebuf[pos]`, but the scan runs only over `i < pos`, so an unterminated last line is never read | a file holding `secret=ABCD` with no final newline gives "No secret defined" | the stored `\n` terminates the last line | high (not executed) | `ConfigFindings.FinalLineIgnored` | `ConfigFindings.FinalLineRead` |
| oath-exec.c:231-234 | the strtoul result is stored into an `int`, so an argument beyond INT_MAX that strtoul accepts is cut to 32 bits | `-g 4294967306` generates a 10-byte secret instead of being refused | a length that does not fit is refused like the other bad arguments | medium (not executed) | `SecretGen.LengthWrapsAround` | `SecretGen.CheckedLengthExact` |

=== FILE: common.dfy ===
/**
 Shared vocabulary: results, options, bytes, and what one read(2) call returns.
 */
module Common {

  datatype Option<+T> = None | Some(value: T)

  datatype Result<+T, +E> = Ok(value: T) | Err(error: E)

  newtype byte = x: int | 0 <= x < 256

  /** The outcome of one read(2) call: the bytes it delivered (none at all
      means end of file) or a negative return value. */
  datatype ReadResult<T> = Got(data: seq<T>) | ReadFailed

  /** read(2) never delivers more than it was asked for: a result longer than
      the request stands for its first `want` bytes. */
  function Clamp<T>(r: ReadResult<T>, want: nat): (c: ReadResult<T>)
    ensures c.Got? <==> r.Got?
    ensures c.Got? ==> |c.data| == if |r.data| <= want then |r.data| else want
    ensures c.Got? ==> c.data == r.data[..|c.data|]
  {
    match r
    case ReadFailed => ReadFailed
    case Got(d) => if |d| <= want then Got(d) else Got(d[..want])
  }

  /** A sequence of `n` zero values, what memset(p, 0, n) leaves behind. */
  function Zeros<T>(n: nat, zero: T): (z: seq<T>)
    ensures |z| == n
    ensures forall j :: 0 <= j < n ==> z[j] == zero
  {
    seq(n, _ => zero)
  }
}

=== FILE: config.dfy ===
/**
 read_config: the chunked scanner over a 1024-byte staging buffer, the
 key/value interpretation of one line, the compaction after each line and
 the end-of-file handling.

 The buffer is modelled as the `pos` bytes the C code scans, `filebuf[0..pos)`.
 The scanner writes NULs into that buffer while it looks for a terminator;
 those writes are part of the state, because the C code keeps them when no
 terminator turns up and scans the same bytes again after the next read.
 */
module ConfigParse {
  import opened Common
  import opened CText

  /** oath_type, plus the zero value main starts from (no `type` line seen). */
  datatype OathType = Unset | Totp | Hotp

  /** oath_config: `secret` is None while the pointer is still NULL. */
  datatype Config = Config(otpType: OathType, secret: Option<seq<byte>>, digits: int)

  /** main's `oath_config config = { 0 }`. */
  const Initial: Config := Config(Unset, None, 0)

  const DefaultDigits: int := 6

  /** sizeof(filebuf); a read asks for at most BufSize - (pos + 1) bytes. */
  const BufSize: nat := 1024
  const MaxPos: nat := BufSize - 1

  /** What oath_base32_decode reports: OATH_OK with the decoded bytes, or an
      error code. The decoder itself belongs to liboath. */
  datatype DecodeResult = Decoded(bytes: seq<byte>) | DecodeFailed(code: int)

  type Decoder = string -> DecodeResult

  /** Every way read_config returns 0, tagged by its diagnostic. */
  datatype ConfigError =
    | CantOpen
    | ReadError
    | UnsupportedType(value: string)
    | BadSecret(code: int)
    | BadNumber(value: string)
    | UnknownItem(key: string)
    | NoSecret

  /** The config file: either open(2) fails, or every read(2) on it returns
      the next element of `chunks` (past the end, every read reports end of file). */
  datatype ConfigFile = Unopenable | Opened(chunks: seq<ReadResult<char>>)

  // ------------------------------------------------------- interpretation

  /** The `digits` value is accepted when strtoul consumes all of it without
      ERANGE. */
  predicate NumberAccepted(value: string) {
    var c := Strtoul(value);
    !c.rangeError && c.end == |value|
  }

  /** The effect of one `key = value` line on the config. */
  function Interpret(cfg: Config, key: string, value: string, decode: Decoder): (r: Result<Config, ConfigError>)
    ensures r.Ok? && !CaseEqual(key, "type") ==> r.value.otpType == cfg.otpType
    ensures r.Ok? && !CaseEqual(key, "secret") ==> r.value.secret == cfg.secret
    ensures r.Ok? && !CaseEqual(key, "digits") ==> r.value.digits == cfg.digits
    ensures r.Ok? && r.value.otpType != cfg.otpType ==> r.value.otpType == Totp
    ensures r.Ok? && r.value.secret != cfg.secret ==>
              r.value.secret.Some? && decode(value) == Decoded(r.value.secret.value)
    ensures (!CaseEqual(key, "type") && !CaseEqual(key, "secret") && !CaseEqual(key, "digits")) ==>
              r == Err(UnknownItem(key))
    // `type`: only TOTP, in any case, is accepted
    ensures CaseEqual(key, "type") ==> (r.Ok? <==> CaseEqual(value, "TOTP"))
    ensures CaseEqual(key, "type") ==>
              r == if r.Ok? then Ok(cfg.(otpType := Totp)) else Err(UnsupportedType(value))
    // `secret`: accepted exactly when the decoder accepts the value
    ensures CaseEqual(key, "secret") ==> (r.Ok? <==> decode(value).Decoded?)
    ensures CaseEqual(key, "secret") ==>
              r == if r.Ok? then Ok(cfg.(secret := Some(decode(value).bytes))) else Err(BadSecret(decode(value).code))
    // `digits`: accepted exactly when strtoul consumes the whole value without overflow
    ensures CaseEqual(key, "digits") ==> (r.Ok? <==> NumberAccepted(value))
    ensures CaseEqual(key, "digits") ==>
              r == if r.Ok? then Ok(cfg.(digits := ToCInt(Strtoul(value).value))) else Err(BadNumber(value))
  {
    if CaseEqual(key, "type") then
      if CaseEqual(value, "TOTP") then Ok(cfg.(otpType := Totp)) else Err(UnsupportedType(value))
    else if CaseEqual(key, "secret") then
      assert Lower(key[0]) == 's' != Lower("digits"[0]);
      match decode(value)
      case Decoded(bytes) => Ok(cfg.(secret := Some(bytes)))
      case DecodeFailed(code) => Err(BadSecret(code))
    else if CaseEqual(key, "digits") then
      if NumberAccepted(value) then Ok(cfg.(digits := ToCInt(Strtoul(value).value)))
      else Err(BadNumber(value))
    else
      Err(UnknownItem(key))
  }

  // --------------------------------------------------------------- scanner

  /** Whether byte `c` ends the current line: `\n` always, `#` only outside
      a comment. */
  predicate Ends(c: char, comment: bool) {
    c == '\n' || (!comment && c == '#')
  }

  /** The outcome of one pass of the `for (i = 0; i < pos; i++)` loop. On a
      terminator it reports its index, the start of the value (None while
      `value == NULL`), the buffer as the pass left it, and the new comment
      flag; otherwise only the buffer as the pass left it. */
  datatype Scan =
    | Terminated(at: nat, value: Option<nat>, scratch: seq<char>, comment: bool)
    | Unterminated(scratch: seq<char>)

  /** What the scan loop does with a byte that neither lies inside a comment
      nor ends the line: a blank is nulled while no `=` has been seen and
      moves the value start past it when it sits there; the first `=` is
      nulled and starts the value; any other byte is left alone. */
  function Visit(buf: seq<char>, i: nat, value: Option<nat>): (bv: (seq<char>, Option<nat>))
    requires i < |buf|
    requires value.Some? ==> value.value <= i
    ensures |bv.0| == |buf|
    ensures forall j :: 0 <= j < |buf| && j != i ==> bv.0[j] == buf[j]
    ensures bv.0[i] == buf[i] || bv.0[i] == NUL
    ensures bv.1.Some? ==> bv.1.value <= i + 1
  {
    if IsBlank(buf[i]) then
      (if value.None? then buf[i := NUL] else buf, if value == Some(i) then Some(i + 1) else value)
    else if buf[i] == '=' && value.None? then
      (buf[i := NUL], Some(i + 1))
    else
      (buf, value)
  }

  /** The scan loop from index `i` on, with `buf` already holding the NULs
      written before `i`. */
  function ScanFrom(buf: seq<char>, i: nat, value: Option<nat>, comment: bool): (o: Scan)
    requires i <= |buf|
    requires value.Some? ==> value.value <= i
    ensures |o.scratch| == |buf|
    ensures o.Unterminated? ==> forall j :: i <= j < |buf| ==> !Ends(buf[j], comment)
    ensures o.Terminated? ==>
              && i <= o.at < |buf|
              && Ends(buf[o.at], comment)
              && (forall j :: i <= j < o.at ==> !Ends(buf[j], comment))
              && o.comment == (buf[o.at] == '#')
              && (o.value.Some? ==> o.value.value <= o.at)
    ensures o.Terminated? && comment ==> o.value == value
    decreases |buf| - i
  {
    if i == |buf| then Unterminated(buf)
    else if comment && buf[i] != '\n' then
      ScanFrom(buf, i + 1, value, comment)
    else if buf[i] == '#' || buf[i] == '\n' then
      Terminated(i, value, buf[i := NUL], buf[i] == '#')
    else
      var (b, v) := Visit(buf, i, value);
      assert !Ends(buf[i], comment) && forall j :: i < j < |buf| ==> b[j] == buf[j];
      ScanFrom(b, i + 1, v, comment)
  }

  /** A pass never rewrites the bytes before the index it starts from. */
  lemma {:induction false} ScanKeepsPrefix(buf: seq<char>, i: nat, value: Option<nat>, comment: bool)
    requires i <= |buf|
    requires value.Some? ==> value.value <= i
    ensures var o := ScanFrom(buf, i, value, comment);
      forall j :: 0 <= j < i ==> o.scratch[j] == buf[j]
    decreases |buf| - i
  {
    if i == |buf| {
    } else if comment && buf[i] != '\n' {
      ScanKeepsPrefix(buf, i + 1, value, comment);
    } else if buf[i] == '#' || buf[i] == '\n' {
    } else {
      var (b, v) := Visit(buf, i, value);
      ScanKeepsPrefix(b, i + 1, v, comment);
    }
  }

  /** A pass only ever writes NULs. */
  lemma {:induction false} ScanWritesNul(buf: seq<char>, i: nat, value: Option<nat>, comment: bool)
    requires i <= |buf|
    requires value.Some? ==> value.value <= i
    ensures var o := ScanFrom(buf, i, value, comment);
      forall j :: 0 <= j < |buf| ==> o.scratch[j] == buf[j] || o.scratch[j] == NUL
    decreases |buf| - i
  {
    if i == |buf| {
    } else if comment && buf[i] != '\n' {
      ScanWritesNul(buf, i + 1, value, comment);
    } else if buf[i] == '#' || buf[i] == '\n' {
    } else {
      var (b, v) := Visit(buf, i, value);
      ScanWritesNul(b, i + 1, v, comment);
    }
  }

  /** A pass that finds a terminator nulls it and leaves every later byte alone. */
  lemma {:induction false} ScanStopsAtTerminator(buf: seq<char>, i: nat, value: Option<nat>, comment: bool)
    requires i <= |buf|
    requires value.Some? ==> value.value <= i
    ensures var o := ScanFrom(buf, i, value, comment);
      o.Terminated? ==> o.scratch[o.at] == NUL && forall j :: o.at < j < |buf| ==> o.scratch[j] == buf[j]
    decreases |buf| - i
  {
    if i == |buf| {
    } else if comment && buf[i] != '\n' {
      ScanStopsAtTerminator(buf, i + 1, value, comment);
    } else if buf[i] == '#' || buf[i] == '\n' {
    } else {
      var (b, v) := Visit(buf, i, value);
      ScanStopsAtTerminator(b, i + 1, v, comment);
    }
  }

  /** Inside a comment a pass writes nothing but the terminating NUL. */
  lemma {:induction false} ScanSkipsComment(buf: seq<char>, i: nat, value: Option<nat>, comment: bool)
    requires i <= |buf|
    requires value.Some? ==> value.value <= i
    ensures var o := ScanFrom(buf, i, value, comment);
      comment ==> forall j :: 0 <= j < |buf| && (o.Unterminated? || j != o.at) ==> o.scratch[j] == buf[j]
    decreases |buf| - i
  {
    if i == |buf| {
    } else if comment && buf[i] != '\n' {
      ScanSkipsComment(buf, i + 1, value, comment);
    } else if buf[i] == '#' || buf[i] == '\n' {
    } else {
      var (b, v) := Visit(buf, i, value);
      ScanSkipsComment(b, i + 1, v, comment);
    }
  }

  function ScanLine(buf: seq<char>, comment: bool): Scan
  {
    ScanFrom(buf, 0, None, comment)
  }

  /** The key of a terminated line: the C string at the start of the buffer. */
  function KeyOf(o: Scan): string
    requires o.Terminated? && o.at <= |o.scratch|
  {
    CString(o.scratch[..o.at], 0)
  }

  /** The value of a terminated line: the C string at `value`, if any. */
  function ValueOf(o: Scan): Option<string>
    requires o.Terminated? && o.at <= |o.scratch|
    requires o.value.Some? ==> o.value.value <= o.at
  {
    match o.value
    case None => None
    case Some(v) => Some(CString(o.scratch[..o.at], v))
  }

  // ---------------------------------------------------------- parse state

  /** Selects between the code as written and the corrected behaviour
      described under Findings: the corrected scanner keeps the buffer
      untouched when a pass finds no terminator, and at end of file places
      the `\n` inside the scanned range. */
  datatype ScanMode = AsWritten | Corrected

  /** The state read_config carries between passes: the scanned bytes
      `filebuf[0..pos)`, the comment latch and the config built so far. */
  datatype Parser = Parser(buf: seq<char>, comment: bool, cfg: Config)

  /** One iteration of the inner do-while. */
  datatype Step = Consumed(next: Parser) | Stalled(next: Parser) | Failed(error: ConfigError)

  function LineStep(mode: ScanMode, p: Parser, decode: Decoder): (s: Step)
    ensures s.Consumed? ==>
              && |s.next.buf| < |p.buf|
              && s.next.buf == p.buf[|p.buf| - |s.next.buf|..]
              && Ends(p.buf[|p.buf| - |s.next.buf| - 1], p.comment)
              && (forall j :: 0 <= j < |p.buf| - |s.next.buf| - 1 ==> !Ends(p.buf[j], p.comment))
              && s.next.comment == (p.buf[|p.buf| - |s.next.buf| - 1] == '#')
    ensures s.Stalled? <==> forall j :: 0 <= j < |p.buf| ==> !Ends(p.buf[j], p.comment)
    ensures s.Stalled? ==> |s.next.buf| == |p.buf| && s.next.comment == p.comment && s.next.cfg == p.cfg
    ensures s.Stalled? ==> forall j :: 0 <= j < |p.buf| ==> !Ends(s.next.buf[j], s.next.comment)
    ensures s.Stalled? && mode == Corrected ==> s.next == p
  {
    var o := ScanLine(p.buf, p.comment);
    if o.Unterminated? then
      ScanWritesNul(p.buf, 0, None, p.comment);
      Stalled(if mode == AsWritten then p.(buf := o.scratch) else p)
    else
      ScanStopsAtTerminator(p.buf, 0, None, p.comment);
      // the line and its terminator are dropped; what follows moves to the front
      var rest := o.scratch[o.at + 1..];
      assert rest == p.buf[o.at + 1..];
      var next := Parser(rest, o.comment, p.cfg);
      match ValueOf(o)
      case None => Consumed(next)
      case Some(v) =>
        match Interpret(p.cfg, KeyOf(o), v, decode)
        case Ok(cfg) => Consumed(next.(cfg := cfg))
        case Err(e) => Failed(e)
  }

  /** The inner do-while: take lines until a pass finds no terminator. The
      surviving buffer holds no terminator. */
  function Drain(mode: ScanMode, p: Parser, decode: Decoder): (r: Result<Parser, ConfigError>)
    ensures r.Ok? ==> |r.value.buf| <= |p.buf|
    ensures r.Ok? ==> forall j :: 0 <= j < |r.value.buf| ==> !Ends(r.value.buf[j], r.value.comment)
    decreases |p.buf|
  {
    match LineStep(mode, p, decode)
    case Consumed(q) => Drain(mode, q, decode)
    case Stalled(q) => Ok(q)
    case Failed(e) => Err(e)
  }

  /** Lines 141-146: succeed only when a non-empty secret was decoded. */
  function Finish(cfg: Config): (r: Result<Config, ConfigError>)
    ensures r.Ok? <==> cfg.secret.Some? && |cfg.secret.value| > 0
    ensures r.Ok? ==> r.value == cfg
    ensures r.Err? ==> r.error == NoSecret
  {
    if cfg.secret.None? || |cfg.secret.value| == 0 then Err(NoSecret) else Ok(cfg)
  }

  /** The pass after read(2) returned 0. As written, the `\n` stored at
      filebuf[pos] lies outside the scanned range `i < pos`. */
  function EndOfFile(mode: ScanMode, p: Parser, decode: Decoder): (r: Result<Config, ConfigError>)
    ensures r.Ok? ==> r.value.secret.Some? && |r.value.secret.value| > 0
    // as written, the bytes left over are never interpreted
    ensures mode == AsWritten && (forall j :: 0 <= j < |p.buf| ==> !Ends(p.buf[j], p.comment)) ==>
              r == Finish(p.cfg)
    // corrected, the stored `\n` closes an open comment and nothing else happens
    ensures mode == Corrected && p.comment && (forall j :: 0 <= j < |p.buf| ==> !Ends(p.buf[j], true)) ==>
              r == Finish(p.cfg)
  {
    var last := if mode == AsWritten then p else p.(buf := p.buf + ['\n']);
    CommentClosedAtEnd(p, decode);
    match Drain(mode, last, decode)
    case Err(e) => Err(e)
    case Ok(q) => Finish(q.cfg)
  }

  /** Corrected: the `\n` stored at end of file closes an open comment and
      leaves an empty buffer. */
  lemma CommentClosedAtEnd(p: Parser, decode: Decoder)
    ensures p.comment && (forall j :: 0 <= j < |p.buf| ==> !Ends(p.buf[j], true)) ==>
              Drain(Corrected, p.(buf := p.buf + ['\n']), decode) == Ok(Parser([], false, p.cfg))
  {
    if p.comment && forall j :: 0 <= j < |p.buf| ==> !Ends(p.buf[j], true) {
      var b := p.buf + ['\n'];
      var o := ScanLine(b, true);
      assert Ends(b[|p.buf|], true);
      assert o.Terminated? && o.at == |p.buf|;
      assert o.scratch[o.at + 1..] == [];
      var e := Parser([], false, p.cfg);
      assert LineStep(Corrected, p.(buf := b), decode) == Consumed(e);
      assert LineStep(Corrected, e, decode) == Stalled(e);
    }
  }

  /** The outer do-while: read at most MaxPos - pos bytes, append them, drain;
      a read returning 0 bytes (end of file, or a request for 0 bytes when
      the buffer is full) ends the loop. */
  function ReadLoop(mode: ScanMode, p: Parser, chunks: seq<ReadResult<char>>, decode: Decoder): (r: Result<Config, ConfigError>)
    requires |p.buf| <= MaxPos
    ensures r.Ok? ==> r.value.secret.Some? && |r.value.secret.value| > 0
    ensures chunks != [] && chunks[0].ReadFailed? ==> r == Err(ReadError)
    decreases |chunks|
  {
    if chunks == [] then EndOfFile(mode, p, decode)
    else
      match Clamp(chunks[0], MaxPos - |p.buf|)
      case ReadFailed => Err(ReadError)
      case Got(data) =>
        if |data| == 0 then EndOfFile(mode, p, decode)
        else
          match Drain(mode, p.(buf := p.buf + data), decode)
          case Err(e) => Err(e)
          case Ok(q) => ReadLoop(mode, q, chunks[1..], decode)
  }

  /** The parser read_config starts from: an empty buffer, no comment, and
      main's zeroed config with `digits` set to its default. */
  const Start: Parser := Parser([], false, Initial.(digits := DefaultDigits))

  function ReadConfig(mode: ScanMode, file: ConfigFile, decode: Decoder): (r: Result<Config, ConfigError>)
    ensures r.Ok? ==> r.value.secret.Some? && |r.value.secret.value| > 0
    ensures file.Unopenable? ==> r == Err(CantOpen)
    ensures file.Opened? && file.chunks != [] && file.chunks[0].ReadFailed? ==> r == Err(ReadError)
  {
    match file
    case Unopenable => Err(CantOpen)
    case Opened(chunks) => ReadLoop(mode, Start, chunks, decode)
  }

  /** The inner do-while as it runs: scan, interpret, compact, until a pass
      finds no terminator. */
  method DrainLines(mode: ScanMode, p: Parser, decode: Decoder) returns (r: Result<Parser, ConfigError>)
    ensures r == Drain(mode, p, decode)
    ensures r.Ok? ==> forall j :: 0 <= j < |r.value.buf| ==> !Ends(r.value.buf[j], r.value.comment)
  {
    var q := p;
    while true
      invariant Drain(mode, q, decode) == Drain(mode, p, decode)
      decreases |q.buf|
    {
      var s := LineStep(mode, q, decode);
      if s.Failed? {
        return Err(s.error);
      }
      if s.Stalled? {
        return Ok(s.next);
      }
      q := s.next;
    }
  }

  /** read_config as it runs: the outer do-while reads at most
      MaxPos - pos bytes, appends them and drains; a read of 0 bytes ends
      it, and a failed read is an error. */
  method ReadConfigLoop(mode: ScanMode, file: ConfigFile, decode: Decoder) returns (r: Result<Config, ConfigError>)
    ensures r == ReadConfig(mode, file, decode)
    ensures r.Ok? ==> r.value.secret.Some? && |r.value.secret.value| > 0
  {
    if file.Unopenable? {
      return Err(CantOpen);
    }
    var chunks := file.chunks;
    var p := Start;
    var k := 0;
    while true
      invariant 0 <= k <= |chunks| && |p.buf| <= MaxPos
      invariant ReadLoop(mode, p, chunks[k..], decode) == ReadConfig(mode, file, decode)
      decreases |chunks| - k
    {
      var c := if k < |chunks| then Clamp(chunks[k], MaxPos - |p.buf|) else Got([]);
      if c.ReadFailed? {
        return Err(ReadError);
      }
      if |c.data| == 0 {
        var last := if mode == AsWritten then p else p.(buf := p.buf + ['\n']);
        var d := DrainLines(mode, last, decode);
        if d.Err? {
          return Err(d.error);
        }
        return Finish(d.value.cfg);
      }
      var d := DrainLines(mode, p.(buf := p.buf + c.data), decode);
      if d.Err? {
        return Err(d.error);
      }
      assert chunks[k..][1..] == chunks[k + 1..];
      p := d.value;
      k := k + 1;
    }
  }
}

=== FILE: config_props.dfy ===
/**
 Properties of read_config: a reference reading of one line that works on
 the original bytes without in-place writes, the lemma that the scanner
 agrees with it, and the consequences for comments, lines without `=`,
 case-insensitive keys, values, and end of input.
 */
module ConfigProps {
  import opened Common
  import opened CText
  import opened ConfigParse

  // ----------------------------------------------------- reference line

  /** The index of the first `=` at or after `i`, or |s|. */
  function FirstEqual(s: seq<char>, i: nat): (k: nat)
    requires i <= |s|
    ensures i <= k <= |s|
    ensures forall j :: i <= j < k ==> s[j] != '='
    ensures k < |s| ==> s[k] == '='
    decreases |s| - i
  {
    if i == |s| || s[i] == '=' then i else FirstEqual(s, i + 1)
  }

  /** The index of the first non-blank at or after `i`, or |s|. */
  function SkipBlanks(s: seq<char>, i: nat): (k: nat)
    requires i <= |s|
    ensures i <= k <= |s|
    ensures forall j :: i <= j < k ==> IsBlank(s[j])
    ensures k < |s| ==> !IsBlank(s[k])
    decreases |s| - i
  {
    if i < |s| && IsBlank(s[i]) then SkipBlanks(s, i + 1) else i
  }

  predicate EndsKey(c: char) {
    IsBlank(c) || c == '=' || c == NUL
  }

  /** The index of the first blank, `=` or NUL at or after `i`, or |s|. */
  function KeyEnd(s: seq<char>, i: nat): (k: nat)
    requires i <= |s|
    ensures i <= k <= |s|
    ensures forall j :: i <= j < k ==> !EndsKey(s[j])
    ensures k < |s| ==> EndsKey(s[k])
    decreases |s| - i
  {
    if i == |s| || EndsKey(s[i]) then i else KeyEnd(s, i + 1)
  }

  /** The key of a line (the bytes before its terminator): everything before
      the first blank, `=` or NUL. */
  function LineKey(line: string): string {
    line[..KeyEnd(line, 0)]
  }

  /** The value of a line: none without an `=`; otherwise the C string that
      starts after the first `=` and the blanks right after it. */
  function LineValue(line: string): Option<string> {
    var e := FirstEqual(line, 0);
    if e == |line| then None else Some(CString(line, SkipBlanks(line, e + 1)))
  }

  /** The index of the first byte that ends the line, or |buf|. */
  function TerminatorIndex(buf: seq<char>, comment: bool): (k: nat)
    ensures k <= |buf|
    ensures forall j :: 0 <= j < k ==> !Ends(buf[j], comment)
    ensures k < |buf| ==> Ends(buf[k], comment)
  {
    TerminatorFrom(buf, 0, comment)
  }

  function TerminatorFrom(buf: seq<char>, i: nat, comment: bool): (k: nat)
    requires i <= |buf|
    ensures i <= k <= |buf|
    ensures forall j :: i <= j < k ==> !Ends(buf[j], comment)
    ensures k < |buf| ==> Ends(buf[k], comment)
    decreases |buf| - i
  {
    if i == |buf| || Ends(buf[i], comment) then i else TerminatorFrom(buf, i + 1, comment)
  }

  /** What one complete line does to a config outside a comment, read off
      the reference split of the line: nothing without an `=`, otherwise
      the interpretation of its key and value. */
  function LineEffect(cfg: Config, line: string, decode: Decoder): Result<Config, ConfigError> {
    match LineValue(line)
    case None => Ok(cfg)
    case Some(v) => Interpret(cfg, LineKey(line), v, decode)
  }

  /** One line read by reference: find the terminator, drop everything up to
      and including it, and apply the line's effect unless a comment was
      open. */
  function ReferenceStep(p: Parser, decode: Decoder): Step
    requires TerminatorIndex(p.buf, p.comment) < |p.buf|
  {
    var at := TerminatorIndex(p.buf, p.comment);
    var rest := p.buf[at + 1..];
    if p.comment then Consumed(Parser(rest, false, p.cfg))
    else
      var r := LineEffect(p.cfg, p.buf[..at], decode);
      if r.Err? then Failed(r.error) else Consumed(Parser(rest, p.buf[at] == '#', r.value))
  }

  /** The terminator is the first byte that ends the line. */
  lemma TerminatorAt(buf: seq<char>, comment: bool, n: nat)
    requires n < |buf| && Ends(buf[n], comment)
    requires forall j :: 0 <= j < n ==> !Ends(buf[j], comment)
    ensures TerminatorIndex(buf, comment) == n
  {
    var k := TerminatorIndex(buf, comment);
    if k < n {
      assert Ends(buf[k], comment);
    }
  }

  // ------------------------------------- the scanner agrees with the reference

  function NullBlank(c: char): char {
    if IsBlank(c) then NUL else c
  }

  /** What a pass outside a comment has written into the first `i` bytes of
      `orig`, given the value pointer it holds at `i`. */
  ghost predicate SplitSoFar(orig: seq<char>, buf: seq<char>, i: nat, value: Option<nat>) {
    && i <= |orig| == |buf|
    && (forall j :: 0 <= j < i ==> !Ends(orig[j], false))
    && match value
       case None => forall j :: 0 <= j < i ==> orig[j] != '=' && buf[j] == NullBlank(orig[j])
       case Some(v) =>
         var e := FirstEqual(orig, 0);
         && e < v <= i
         && (forall j :: 0 <= j < e ==> buf[j] == NullBlank(orig[j]))
         && buf[e] == NUL
         && (forall j :: e < j < i ==> buf[j] == orig[j])
         && (forall j :: e < j < v ==> IsBlank(orig[j]))
         && (v < i ==> !IsBlank(orig[v]))
  }

  /** One visited byte keeps the picture of what the pass has written. */
  lemma VisitSplit(orig: seq<char>, buf: seq<char>, i: nat, value: Option<nat>)
    requires SplitSoFar(orig, buf, i, value)
    requires i < |orig| && buf[i] == orig[i] && !Ends(orig[i], false)
    requires value.Some? ==> value.value <= i
    ensures var (b, v) := Visit(buf, i, value); SplitSoFar(orig, b, i + 1, v)
  {
    if buf[i] == '=' && value.None? {
      assert FirstEqual(orig, 0) == i;
    }
  }

  lemma {:induction false} ScanFromSplit(orig: seq<char>, buf: seq<char>, i: nat, value: Option<nat>)
    requires SplitSoFar(orig, buf, i, value)
    requires forall j :: i <= j < |orig| ==> buf[j] == orig[j]
    requires value.Some? ==> value.value <= i
    ensures var o := ScanFrom(buf, i, value, false);
      o.Terminated? ==> SplitSoFar(orig, o.scratch, o.at, o.value)
    decreases |buf| - i, 1
  {
    if i == |buf| {
    } else if buf[i] == '#' || buf[i] == '\n' {
      SplitSoFarWrite(orig, buf, i, value);
    } else {
      ScanFromSplitVisit(orig, buf, i, value);
    }
  }

  /** The step of ScanFromSplit for a byte the pass visits. */
  lemma {:induction false} ScanFromSplitVisit(orig: seq<char>, buf: seq<char>, i: nat, value: Option<nat>)
    requires SplitSoFar(orig, buf, i, value)
    requires forall j :: i <= j < |orig| ==> buf[j] == orig[j]
    requires value.Some? ==> value.value <= i
    requires i < |buf| && !Ends(buf[i], false)
    ensures var o := ScanFrom(buf, i, value, false);
      o.Terminated? ==> SplitSoFar(orig, o.scratch, o.at, o.value)
    decreases |buf| - i, 0
  {
    var (b, v) := Visit(buf, i, value);
    assert ScanFrom(buf, i, value, false) == ScanFrom(b, i + 1, v, false);
    VisitSplit(orig, buf, i, value);
    ScanFromSplit(orig, b, i + 1, v);
  }

  /** Nulling the byte at `i` leaves the picture of the bytes before it. */
  lemma SplitSoFarWrite(orig: seq<char>, buf: seq<char>, i: nat, value: Option<nat>)
    requires SplitSoFar(orig, buf, i, value) && i < |buf|
    ensures SplitSoFar(orig, buf[i := NUL], i, value)
  {
    var b := buf[i := NUL];
    assert forall j :: 0 <= j < i ==> b[j] == buf[j];
  }

  /** A pass that finds no terminator has still nulled the first `=`. */
  lemma {:induction false} StalledScanNullsEquals(orig: seq<char>, buf: seq<char>, i: nat, value: Option<nat>)
    requires SplitSoFar(orig, buf, i, value)
    requires forall j :: i <= j < |orig| ==> buf[j] == orig[j]
    requires value.Some? ==> value.value <= i
    ensures var o := ScanFrom(buf, i, value, false);
      o.Unterminated? && FirstEqual(orig, 0) < |orig| ==> o.scratch[FirstEqual(orig, 0)] == NUL
    decreases |buf| - i
  {
    if i == |buf| {
      if value.None? {
        assert forall j :: 0 <= j < |orig| ==> orig[j] != '=';
      }
    } else if buf[i] == '#' || buf[i] == '\n' {
    } else {
      VisitSplit(orig, buf, i, value);
      var (b, v) := Visit(buf, i, value);
      StalledScanNullsEquals(orig, b, i + 1, v);
    }
  }

  /** What a pass that finds no terminator leaves behind outside a comment:
      the blanks before the first `=`, and that `=`, become NUL; every other
      byte is kept. */
  function Nulled(u: seq<char>): (s: seq<char>)
    ensures |s| == |u|
  {
    var e := FirstEqual(u, 0);
    seq(|u|, j requires 0 <= j < |u| => if j < e then NullBlank(u[j]) else if j == e then NUL else u[j])
  }

  /** The bytes a stalled pass leaves in the buffer: inside a comment it
      writes nothing. */
  function StallScratch(buf: seq<char>, comment: bool): seq<char> {
    if comment then buf else Nulled(buf)
  }

  lemma SplitSoFarComplete(orig: seq<char>, buf: seq<char>, value: Option<nat>)
    requires SplitSoFar(orig, buf, |orig|, value)
    ensures buf == Nulled(orig)
  {
    var n := Nulled(orig);
    if value.None? {
      assert FirstEqual(orig, 0) == |orig|;
    }
    assert forall j :: 0 <= j < |buf| ==> buf[j] == n[j];
  }

  /** A pass outside a comment that runs off the end of the buffer leaves
      exactly the nulled bytes. */
  lemma {:induction false} StalledScanFrom(orig: seq<char>, buf: seq<char>, i: nat, value: Option<nat>)
    requires SplitSoFar(orig, buf, i, value)
    requires forall j :: i <= j < |orig| ==> buf[j] == orig[j]
    requires value.Some? ==> value.value <= i
    ensures var o := ScanFrom(buf, i, value, false);
      o.Unterminated? ==> o.scratch == Nulled(orig)
    decreases |buf| - i
  {
    if i == |buf| {
      SplitSoFarComplete(orig, buf, value);
    } else if buf[i] == '#' || buf[i] == '\n' {
    } else {
      VisitSplit(orig, buf, i, value);
      var (b, v) := Visit(buf, i, value);
      StalledScanFrom(orig, b, i + 1, v);
    }
  }

  /** The scratch of a whole pass that finds no terminator. */
  lemma StalledScan(buf: seq<char>, comment: bool)
    requires TerminatorIndex(buf, comment) == |buf|
    ensures ScanLine(buf, comment) == Unterminated(StallScratch(buf, comment))
  {
    var o := ScanLine(buf, comment);
    if comment {
      ScanSkipsComment(buf, 0, None, comment);
      assert o.Unterminated?;
      assert o.scratch == buf;
    } else {
      StalledScanFrom(buf, buf, 0, None);
      assert o.Unterminated?;
    }
  }

  lemma SplitKey(orig: seq<char>, scratch: seq<char>, at: nat, value: Option<nat>)
    requires SplitSoFar(orig, scratch, at, value)
    ensures CString(scratch[..at], 0) == LineKey(orig[..at])
  {
    var line := orig[..at];
    var s := scratch[..at];
    var k := KeyEnd(line, 0);
    if value.Some? {
      var e := FirstEqual(orig, 0);
      assert line[e] == '=';
      assert k <= e;
    }
    CStringAt(s, 0, k);
    assert s[..k] == line[..k];
  }

  lemma SplitValue(orig: seq<char>, scratch: seq<char>, at: nat, value: Option<nat>)
    requires SplitSoFar(orig, scratch, at, value)
    requires value.Some? ==> value.value <= at
    ensures LineValue(orig[..at]) ==
              match value
              case None => None
              case Some(v) => Some(CString(scratch[..at], v))
  {
    var line := orig[..at];
    match value
    case None =>
      assert FirstEqual(line, 0) == |line|;
    case Some(v) =>
      var e := FirstEqual(orig, 0);
      assert line[e] == '=';
      assert FirstEqual(line, 0) == e;
      assert SkipBlanks(line, e + 1) == v;
      CStringSameTail(scratch[..at], line, v);
  }

  /** Outside a comment, the key and value the scanner hands to the
      interpretation are those of the reference reading of the line. */
  lemma ScanSplitsLine(buf: seq<char>)
    ensures var o := ScanLine(buf, false);
      o.Terminated? ==> KeyOf(o) == LineKey(buf[..o.at]) && ValueOf(o) == LineValue(buf[..o.at])
  {
    var o := ScanLine(buf, false);
    ScanFromSplit(buf, buf, 0, None);
    if o.Terminated? {
      SplitKey(buf, o.scratch, o.at, o.value);
      SplitValue(buf, o.scratch, o.at, o.value);
    }
  }

  /** The scanner, in either mode, takes a terminated line exactly as the
      reference reading does. */
  lemma LineStepIsReference(mode: ScanMode, p: Parser, decode: Decoder)
    requires TerminatorIndex(p.buf, p.comment) < |p.buf|
    ensures LineStep(mode, p, decode) == ReferenceStep(p, decode)
  {
    ScanTerminatesAt(p.buf, p.comment);
    if p.comment {
      CommentStepIsReference(mode, p, decode);
    } else {
      ScanSplitsLine(p.buf);
      PlainStepIsReference(mode, p, decode);
    }
  }

  /** A buffer holding a terminator makes the pass stop at the first one,
      with the bytes after it untouched. */
  lemma ScanTerminatesAt(buf: seq<char>, comment: bool)
    requires TerminatorIndex(buf, comment) < |buf|
    ensures var o := ScanLine(buf, comment);
      && o.Terminated? && o.at == TerminatorIndex(buf, comment)
      && o.scratch[o.at + 1..] == buf[o.at + 1..]
  {
    var o := ScanLine(buf, comment);
    ScanStopsAtTerminator(buf, 0, None, comment);
    assert o.Terminated?;
  }

  lemma CommentStepIsReference(mode: ScanMode, p: Parser, decode: Decoder)
    requires p.comment
    requires TerminatorIndex(p.buf, p.comment) < |p.buf|
    requires var o := ScanLine(p.buf, p.comment);
      && o.Terminated? && o.at == TerminatorIndex(p.buf, p.comment)
      && o.scratch[o.at + 1..] == p.buf[o.at + 1..]
    ensures LineStep(mode, p, decode) == ReferenceStep(p, decode)
  {
  }

  lemma PlainStepIsReference(mode: ScanMode, p: Parser, decode: Decoder)
    requires !p.comment
    requires TerminatorIndex(p.buf, p.comment) < |p.buf|
    requires var o := ScanLine(p.buf, p.comment);
      && o.Terminated? && o.at == TerminatorIndex(p.buf, p.comment)
      && o.scratch[o.at + 1..] == p.buf[o.at + 1..]
      && KeyOf(o) == LineKey(p.buf[..o.at]) && ValueOf(o) == LineValue(p.buf[..o.at])
    ensures LineStep(mode, p, decode) == ReferenceStep(p, decode)
  {
  }

  /** A pass that finds no terminator keeps the parser in the corrected
      mode, and in the mode as written leaves the nulled bytes behind. */
  lemma StalledStep(mode: ScanMode, p: Parser, decode: Decoder)
    requires TerminatorIndex(p.buf, p.comment) == |p.buf|
    ensures LineStep(mode, p, decode) == Stalled(Leftover(mode, p))
  {
    StalledScan(p.buf, p.comment);
  }

  /** The parser a drain hands back once no terminator is left. */
  function Leftover(mode: ScanMode, q: Parser): Parser {
    if mode == Corrected then q else q.(buf := StallScratch(q.buf, q.comment))
  }

  /** The reference inner loop: take reference lines until no terminator is
      left. */
  function ReferenceDrain(p: Parser, decode: Decoder): (r: Result<Parser, ConfigError>)
    ensures r.Ok? ==> TerminatorIndex(r.value.buf, r.value.comment) == |r.value.buf|
    decreases |p.buf|
  {
    if TerminatorIndex(p.buf, p.comment) == |p.buf| then Ok(p)
    else
      match ReferenceStep(p, decode)
      case Consumed(q) => ReferenceDrain(q, decode)
      case Failed(e) => Err(e)
      case Stalled(q) => Ok(q)
  }

  /** The inner loop of either mode is the reference loop; the modes differ
      only in the bytes a final stalled pass leaves behind. */
  lemma {:induction false} DrainIsReference(mode: ScanMode, p: Parser, decode: Decoder)
    ensures Drain(mode, p, decode) ==
              match ReferenceDrain(p, decode)
              case Err(e) => Err(e)
              case Ok(q) => Ok(Leftover(mode, q))
    decreases |p.buf|
  {
    if TerminatorIndex(p.buf, p.comment) == |p.buf| {
      StalledStep(mode, p, decode);
    } else {
      LineStepIsReference(mode, p, decode);
      match ReferenceStep(p, decode)
      case Consumed(q) => DrainIsReference(mode, q, decode);
      case Failed(e) =>
      case Stalled(q) =>
    }
  }

  /** The two modes agree on everything but the leftover bytes: the same
      error, or the same config, comment latch and buffer length. */
  lemma DrainModesAgree(p: Parser, decode: Decoder)
    ensures var w := Drain(AsWritten, p, decode);
      var c := Drain(Corrected, p, decode);
      && w.Ok? == c.Ok?
      && (w.Err? ==> w.error == c.error)
      && (w.Ok? ==> w.value.cfg == c.value.cfg && w.value.comment == c.value.comment
                    && |w.value.buf| == |c.value.buf|)
  {
    DrainIsReference(AsWritten, p, decode);
    DrainIsReference(Corrected, p, decode);
  }

  // ------------------------------------------------ consequences per line

  /** While a comment is open, the line up to the next `\n` is dropped
      without being interpreted, and the `\n` closes the comment. */
  lemma CommentSkipsToNewline(mode: ScanMode, p: Parser, decode: Decoder, n: nat)
    requires p.comment
    requires n < |p.buf| && p.buf[n] == '\n'
    requires forall j :: 0 <= j < n ==> p.buf[j] != '\n'
    ensures LineStep(mode, p, decode) == Consumed(Parser(p.buf[n + 1..], false, p.cfg))
  {
    TerminatorAt(p.buf, p.comment, n);
    LineStepIsReference(mode, p, decode);
  }

  /** Outside a comment, `#` ends the line like `\n`: the text before it is
      still interpreted, and the comment latch is set for what follows. */
  lemma HashEndsLineAndOpensComment(mode: ScanMode, p: Parser, decode: Decoder, n: nat)
    requires !p.comment
    requires n < |p.buf| && p.buf[n] == '#'
    requires forall j :: 0 <= j < n ==> !Ends(p.buf[j], false)
    ensures var r := LineEffect(p.cfg, p.buf[..n], decode);
      LineStep(mode, p, decode) ==
        if r.Err? then Failed(r.error) else Consumed(Parser(p.buf[n + 1..], true, r.value))
  {
    TerminatorAt(p.buf, p.comment, n);
    LineStepIsReference(mode, p, decode);
  }

  /** A line without `=` before its terminator (blank, only blanks, or a
      bare word) leaves the config as it was. */
  lemma LineWithoutEqualsIgnored(mode: ScanMode, p: Parser, decode: Decoder, n: nat)
    requires !p.comment
    requires n < |p.buf| && Ends(p.buf[n], false)
    requires forall j :: 0 <= j < n ==> !Ends(p.buf[j], false) && p.buf[j] != '='
    ensures LineStep(mode, p, decode) == Consumed(Parser(p.buf[n + 1..], p.buf[n] == '#', p.cfg))
  {
    TerminatorAt(p.buf, p.comment, n);
    LineStepIsReference(mode, p, decode);
    assert FirstEqual(p.buf[..n], 0) == n;
  }

  /** The grammar of a line, read back: a key, blanks, `=`, blanks and a
      value come apart into that key and that value. Blanks and `=` inside
      the value, and blanks after it, stay part of it. */
  lemma SplitOfJoinedLine(key: string, before: string, after: string, value: string)
    requires forall j :: 0 <= j < |key| ==> !EndsKey(key[j])
    requires forall j :: 0 <= j < |before| ==> IsBlank(before[j])
    requires forall j :: 0 <= j < |after| ==> IsBlank(after[j])
    requires forall j :: 0 <= j < |value| ==> value[j] != NUL
    requires value == [] || !IsBlank(value[0])
    ensures var line := key + before + "=" + after + value;
      LineKey(line) == key && LineValue(line) == Some(value)
  {
    var line := key + before + "=" + after + value;
    var e := |key| + |before|;
    JoinedKey(key, before + "=" + after + value);
    assert line == key + (before + "=" + after + value);
    JoinedEquals(key + before, after + value);
    assert line == (key + before) + "=" + (after + value);
    JoinedValue(line[..e + 1], after, value);
    assert line == line[..e + 1] + after + value;
  }

  /** The key of `key + rest` is `key` when `rest` starts with a byte that
      ends a key. */
  lemma JoinedKey(key: string, rest: string)
    requires forall j :: 0 <= j < |key| ==> !EndsKey(key[j])
    requires |rest| > 0 && EndsKey(rest[0])
    ensures LineKey(key + rest) == key
  {
    var line := key + rest;
    assert forall j :: 0 <= j < |key| ==> line[j] == key[j];
    assert line[|key|] == rest[0];
    assert line[..|key|] == key;
  }

  /** The first `=` of `head + "=" + tail` is the one after `head` when
      `head` has none. */
  lemma JoinedEquals(head: string, tail: string)
    requires forall j :: 0 <= j < |head| ==> head[j] != '='
    ensures FirstEqual(head + "=" + tail, 0) == |head|
  {
    var line := head + "=" + tail;
    assert forall j :: 0 <= j < |head| ==> line[j] == head[j];
    assert line[|head|] == '=';
  }

  /** After the `=`, the blanks are skipped and the value runs to the end. */
  lemma JoinedValue(head: string, after: string, value: string)
    requires |head| > 0 && FirstEqual(head + after + value, 0) == |head| - 1
    requires forall j :: 0 <= j < |after| ==> IsBlank(after[j])
    requires forall j :: 0 <= j < |value| ==> value[j] != NUL
    requires value == [] || !IsBlank(value[0])
    ensures LineValue(head + after + value) == Some(value)
  {
    var line := head + after + value;
    var v := |head| + |after|;
    SkipJoinedBlanks(head, after, value);
    assert line == (head + after) + value;
    TailCString(head + after, value);
    ValueFrom(line, |head| - 1, v, value);
  }

  /** The value of a line whose first `=` is at `e` and whose blanks after
      it end at `v`. */
  lemma ValueFrom(line: string, e: nat, v: nat, value: string)
    requires e < |line| && FirstEqual(line, 0) == e
    requires v <= |line| && SkipBlanks(line, e + 1) == v
    requires CString(line, v) == value
    ensures LineValue(line) == Some(value)
  {
  }

  lemma SkipJoinedBlanks(head: string, after: string, value: string)
    requires forall j :: 0 <= j < |after| ==> IsBlank(after[j])
    requires value == [] || !IsBlank(value[0])
    ensures SkipBlanks(head + after + value, |head|) == |head| + |after|
  {
    var line := head + after + value;
    var v := |head| + |after|;
    forall j | |head| <= j < v
      ensures IsBlank(line[j])
    {
      assert line[j] == after[j - |head|];
    }
    if v < |line| {
      assert line[v] == value[0];
    }
  }

  /** A NUL-free tail is the C string that starts where it starts. */
  lemma TailCString(head: string, value: string)
    requires forall j :: 0 <= j < |value| ==> value[j] != NUL
    ensures CString(head + value, |head|) == value
  {
    var line := head + value;
    assert forall j :: |head| <= j < |line| ==> line[j] == value[j - |head|];
    CStringAt(line, |head|, |line|);
    assert line[|head|..] == value;
  }

  /** A line that starts with a blank has an empty key. */
  lemma LeadingBlankEmptyKey(line: string)
    requires |line| > 0 && IsBlank(line[0])
    ensures LineKey(line) == ""
  {
    assert KeyEnd(line, 0) == 0;
  }

  /** A line that starts with a blank has the empty key, which names no
      item: if it has an `=` at all, reading the file fails on it. */
  lemma LeadingBlankLineFails(cfg: Config, line: string, decode: Decoder)
    requires |line| > 0 && IsBlank(line[0])
    requires LineValue(line).Some?
    ensures LineEffect(cfg, line, decode) == Err(UnknownItem(""))
  {
    LeadingBlankEmptyKey(line);
  }

  /** A `type` value ending in a blank is never TOTP. A trailing remark
      (`type = TOTP # remark`) leaves the blank before `#` in the value, so
      the line is rejected. */
  lemma TypeWithTrailingBlankFails(cfg: Config, before: string, after: string, value: string, decode: Decoder)
    requires forall j :: 0 <= j < |before| ==> IsBlank(before[j])
    requires forall j :: 0 <= j < |after| ==> IsBlank(after[j])
    requires forall j :: 0 <= j < |value| ==> value[j] != NUL
    requires |value| > 0 && !IsBlank(value[0]) && IsBlank(value[|value| - 1])
    ensures LineEffect(cfg, "type" + before + "=" + after + value, decode) == Err(UnsupportedType(value))
  {
    SplitOfJoinedLine("type", before, after, value);
    assert CaseEqual("type", "type");
    assert !CaseEqual(value, "TOTP") by {
      if |value| == 4 { assert Lower(value[3]) != Lower("TOTP"[3]); }
    }
  }

  // --------------------------------------------------- interpretation

  /** Keys are compared without regard to case: keys that strcasecmp calls
      equal have the same effect. */
  lemma KeyCaseInsensitive(cfg: Config, k1: string, k2: string, value: string, decode: Decoder)
    requires CaseEqual(k1, k2)
    ensures Interpret(cfg, k1, value, decode).Ok? == Interpret(cfg, k2, value, decode).Ok?
    ensures Interpret(cfg, k1, value, decode).Ok? ==>
              Interpret(cfg, k1, value, decode) == Interpret(cfg, k2, value, decode)
  {
    CaseEqualSymmetric(k1, k2);
    forall w: string | w in {"type", "secret", "digits"}
      ensures CaseEqual(k1, w) <==> CaseEqual(k2, w)
    {
      if CaseEqual(k1, w) {
        CaseEqualSymmetric(k1, w);
        CaseEqualTransitive(k2, k1, w);
      }
      if CaseEqual(k2, w) {
        CaseEqualTransitive(k1, k2, w);
      }
    }
  }

  /** `type` accepts TOTP spelt in any case, and only that. */
  lemma TypeAcceptsTotpOnly(cfg: Config, value: string, decode: Decoder)
    ensures CaseEqual(value, "TOTP") ==> Interpret(cfg, "type", value, decode) == Ok(cfg.(otpType := Totp))
    ensures !CaseEqual(value, "TOTP") ==> Interpret(cfg, "type", value, decode) == Err(UnsupportedType(value))
  {
    assert CaseEqual("type", "type");
  }

  /** `digits` stores whatever number is written, with no range check,
      truncated to an int. */
  lemma DigitsStoredUnchecked(cfg: Config, n: nat, decode: Decoder)
    requires n <= ULongMax
    ensures Interpret(cfg, "digits", Decimal(n), decode) == Ok(cfg.(digits := ToCInt(n)))
  {
    StrtoulDecimal(n);
    DigitsKey();
  }

  /** A negative `digits` value is negated modulo 2^64 by strtoul and then
      truncated to an int, which for magnitudes up to 2^31 gives back the
      negative number itself: `digits = -1` stores -1. */
  lemma DigitsStoredNegative(cfg: Config, n: nat, decode: Decoder)
    requires 0 < n <= 0x8000_0000
    ensures Interpret(cfg, "digits", "-" + Decimal(n), decode) == Ok(cfg.(digits := -(n as int)))
  {
    StrtoulNegative(n);
    NegatedToCInt(n);
    DigitsKey();
  }

  /** An empty `digits` value converts nothing, which strtoul reports as 0
      with the whole (empty) value consumed, so 0 is stored. */
  lemma DigitsStoredEmpty(cfg: Config, decode: Decoder)
    ensures Interpret(cfg, "digits", "", decode) == Ok(cfg.(digits := 0))
  {
    StrtoulNoDigits("", "", "");
    DigitsKey();
  }

  /** A number followed by anything but a digit is not consumed whole, and
      a magnitude above ULONG_MAX overflows: both are rejected. */
  lemma DigitsRejected(cfg: Config, n: nat, rest: string, decode: Decoder)
    requires rest != [] || n > ULongMax
    requires rest == [] || !IsDigit(rest[0])
    ensures Interpret(cfg, "digits", Decimal(n) + rest, decode) == Err(BadNumber(Decimal(n) + rest))
  {
    StrtoulSigned("", "", n, rest);
    assert "" + "" + Decimal(n) == Decimal(n);
    DigitsKey();
  }

  /** The literal key `digits` names neither of the other two items. */
  lemma DigitsKey()
    ensures CaseEqual("digits", "digits")
    ensures !CaseEqual("digits", "type") && !CaseEqual("digits", "secret")
  {
    assert Lower("digits"[0]) != Lower("secret"[0]);
  }

  /** A value ending in a blank is never a number strtoul consumes fully, so
      `digits = 6 ` with a trailing blank is rejected. */
  lemma TrailingBlankNotANumber(cfg: Config, value: string, decode: Decoder)
    requires |value| > 0 && IsBlank(value[|value| - 1])
    ensures Interpret(cfg, "digits", value, decode) == Err(BadNumber(value))
  {
    DigitsKey();
  }

  // ------------------------------------------------------ what survives

  /** Every decoded secret came out of the decoder, and the type is never
      anything but unset or TOTP. */
  ghost predicate Plausible(cfg: Config, decode: Decoder) {
    && cfg.otpType != Hotp
    && (cfg.secret.Some? ==> exists v :: decode(v) == Decoded(cfg.secret.value))
  }

  lemma InterpretPlausible(cfg: Config, key: string, value: string, decode: Decoder)
    requires Plausible(cfg, decode)
    ensures var r := Interpret(cfg, key, value, decode); r.Ok? ==> Plausible(r.value, decode)
  {
    var r := Interpret(cfg, key, value, decode);
    if r.Ok? && r.value.secret != cfg.secret {
      assert decode(value) == Decoded(r.value.secret.value);
    }
  }

  lemma {:induction false} DrainPlausible(mode: ScanMode, p: Parser, decode: Decoder)
    requires Plausible(p.cfg, decode)
    ensures var r := Drain(mode, p, decode); r.Ok? ==> Plausible(r.value.cfg, decode)
    decreases |p.buf|
  {
    var o := ScanLine(p.buf, p.comment);
    if o.Terminated? && o.value.Some? {
      ScanStopsAtTerminator(p.buf, 0, None, p.comment);
      InterpretPlausible(p.cfg, KeyOf(o), ValueOf(o).value, decode);
    }
    match LineStep(mode, p, decode)
    case Consumed(q) => DrainPlausible(mode, q, decode);
    case Stalled(q) =>
    case Failed(e) =>
  }

  lemma EndOfFilePlausible(mode: ScanMode, p: Parser, decode: Decoder)
    requires Plausible(p.cfg, decode)
    ensures var r := EndOfFile(mode, p, decode); r.Ok? ==> Plausible(r.value, decode)
  {
    var last := if mode == AsWritten then p else p.(buf := p.buf + ['\n']);
    DrainPlausible(mode, last, decode);
  }

  lemma {:induction false} ReadLoopPlausible(mode: ScanMode, p: Parser, chunks: seq<ReadResult<char>>, decode: Decoder)
    requires |p.buf| <= MaxPos
    requires Plausible(p.cfg, decode)
    ensures var r := ReadLoop(mode, p, chunks, decode); r.Ok? ==> Plausible(r.value, decode)
    decreases |chunks|, 1
  {
    if chunks != [] && Clamp(chunks[0], MaxPos - |p.buf|).Got? && |Clamp(chunks[0], MaxPos - |p.buf|).data| > 0 {
      ReadPlausible(mode, p, chunks, decode);
    } else {
      EndOfFilePlausible(mode, p, decode);
    }
  }

  /** The step of ReadLoopPlausible for a read that delivers bytes. */
  lemma {:induction false} ReadPlausible(mode: ScanMode, p: Parser, chunks: seq<ReadResult<char>>, decode: Decoder)
    requires |p.buf| <= MaxPos
    requires Plausible(p.cfg, decode)
    requires chunks != [] && Clamp(chunks[0], MaxPos - |p.buf|).Got?
    requires |Clamp(chunks[0], MaxPos - |p.buf|).data| > 0
    ensures var r := ReadLoop(mode, p, chunks, decode); r.Ok? ==> Plausible(r.value, decode)
    decreases |chunks|, 0
  {
    var x := Clamp(chunks[0], MaxPos - |p.buf|).data;
    var q := p.(buf := p.buf + x);
    DrainPlausible(mode, q, decode);
    var d := Drain(mode, q, decode);
    ReadLoopStep(mode, p, chunks, x, decode);
    if d.Ok? {
      ReadLoopPlausible(mode, d.value, chunks[1..], decode);
    }
  }

  /** A read that delivers bytes appends them and drains; the loop goes on
      from there unless a line failed. */
  lemma ReadLoopStep(mode: ScanMode, p: Parser, chunks: seq<ReadResult<char>>, x: seq<char>, decode: Decoder)
    requires |p.buf| <= MaxPos && chunks != []
    requires Clamp(chunks[0], MaxPos - |p.buf|).Got? && Clamp(chunks[0], MaxPos - |p.buf|).data == x && |x| > 0
    ensures var d := Drain(mode, p.(buf := p.buf + x), decode);
      ReadLoop(mode, p, chunks, decode) == if d.Err? then Err(d.error) else ReadLoop(mode, d.value, chunks[1..], decode)
  {
    var d := Drain(mode, p.(buf := p.buf + x), decode);
    assert |p.buf + x| <= MaxPos;
    assert d.Ok? ==> |d.value.buf| <= MaxPos;
  }

  /** read_config succeeds only with a non-empty secret that the base32
      decoder produced, and with a type that is unset or TOTP. */
  lemma ReadConfigSucceedsOnlyWithDecodedSecret(mode: ScanMode, file: ConfigFile, decode: Decoder)
    ensures var r := ReadConfig(mode, file, decode);
      r.Ok? ==> && r.value.secret.Some? && |r.value.secret.value| > 0
                && (exists v :: decode(v) == Decoded(r.value.secret.value))
                && r.value.otpType in {Unset, Totp}
  {
    if file.Opened? {
      ReadLoopPlausible(mode, Start, file.chunks, decode);
    }
  }

  // ------------------------------------------------------ end of input

  /** As written, the bytes left in the buffer at end of file are never
      interpreted: the result is decided by the config built so far. */
  lemma EndOfFileIgnoresTail(p: Parser, chunks: seq<ReadResult<char>>, decode: Decoder)
    requires |p.buf| <= MaxPos
    requires forall j :: 0 <= j < |p.buf| ==> !Ends(p.buf[j], p.comment)
    requires chunks == [] || chunks[0] == Got([])
    ensures ReadLoop(AsWritten, p, chunks, decode) == Finish(p.cfg)
  {
    var s := LineStep(AsWritten, p, decode);
    assert s.Stalled?;
  }

  /** A full buffer (pos == 1023) makes the next read ask for 0 bytes, which
      ends parsing whatever the file still holds. */
  lemma FullBufferEndsParse(mode: ScanMode, p: Parser, chunks: seq<ReadResult<char>>, decode: Decoder)
    requires |p.buf| == MaxPos
    requires chunks != [] && chunks[0].Got?
    ensures ReadLoop(mode, p, chunks, decode) == ReadLoop(mode, p, [], decode)
  {
  }
}

=== FILE: ctext.dfy ===
/**
 The pieces of the C library that read_config and main lean on, at the
 value level: NUL-terminated strings, the blank bytes the scanner nulls,
 strcasecmp in the C locale, strtoul in base 10 (glibc, 64-bit unsigned
 long) and the conversion of its result to a 32-bit int.
 */
module CText {

  const NUL: char := '\0'

  /** The bytes the config scanner treats as blanks: space, tab and CR. */
  predicate IsBlank(c: char) {
    c == ' ' || c == '\t' || c == '\r'
  }

  /** The C string that starts at `start`: every byte up to, not including,
      the first NUL (the end of `s` counts as one). */
  function CString(s: seq<char>, start: nat): (r: string)
    requires start <= |s|
    ensures start + |r| <= |s|
    ensures r == s[start..start + |r|]
    ensures forall j :: 0 <= j < |r| ==> r[j] != NUL
    ensures start + |r| == |s| || s[start + |r|] == NUL
    decreases |s| - start
  {
    if start == |s| || s[start] == NUL then [] else [s[start]] + CString(s, start + 1)
  }

  /** A C string is fixed by the position of its terminating NUL. */
  lemma CStringAt(s: seq<char>, start: nat, k: nat)
    requires start <= k <= |s|
    requires forall j :: start <= j < k ==> s[j] != NUL
    requires k == |s| || s[k] == NUL
    ensures CString(s, start) == s[start..k]
  {
  }

  /** A C string depends only on the bytes from its start on. */
  lemma CStringSameTail(s: seq<char>, t: seq<char>, start: nat)
    requires start <= |s| == |t|
    requires forall j :: start <= j < |s| ==> s[j] == t[j]
    ensures CString(s, start) == CString(t, start)
  {
    var r := CString(s, start);
    CStringAt(t, start, start + |r|);
  }

  /** tolower in the C locale. */
  function Lower(c: char): char {
    if 'A' <= c <= 'Z' then (c as int + 32) as char else c
  }

  /** strcasecmp(a, b) == 0 for NUL-free strings. */
  predicate CaseEqual(a: string, b: string) {
    |a| == |b| && forall j :: 0 <= j < |a| ==> Lower(a[j]) == Lower(b[j])
  }

  lemma CaseEqualSymmetric(a: string, b: string)
    requires CaseEqual(a, b)
    ensures CaseEqual(b, a)
  {
  }

  lemma CaseEqualTransitive(a: string, b: string, c: string)
    requires CaseEqual(a, b) && CaseEqual(b, c)
    ensures CaseEqual(a, c)
  {
  }

  // ---------------------------------------------------------------- strtoul

  /** isspace in the C locale: space, \t, \n, \v, \f, \r. */
  predicate IsSpace(c: char) {
    c == ' ' || (9 <= c as int <= 13)
  }

  predicate IsDigit(c: char) {
    '0' <= c <= '9'
  }

  function DigitValue(c: char): nat
    requires IsDigit(c)
  {
    c as int - '0' as int
  }

  function DigitChar(d: nat): (c: char)
    requires d < 10
    ensures IsDigit(c) && DigitValue(c) == d
  {
    ('0' as int + d) as char
  }

  /** 2^64: unsigned long is 64 bits wide. */
  const ULongModulus: nat := 0x1_0000_0000_0000_0000
  const ULongMax: nat := ULongModulus - 1

  /** The index of the first byte at or after `i` that isspace rejects. */
  function SkipSpace(s: string, i: nat): (k: nat)
    requires i <= |s|
    ensures i <= k <= |s|
    ensures forall j :: i <= j < k ==> IsSpace(s[j])
    ensures k < |s| ==> !IsSpace(s[k])
    decreases |s| - i
  {
    if i < |s| && IsSpace(s[i]) then SkipSpace(s, i + 1) else i
  }

  /** The index of the first non-digit at or after `i`. */
  function DigitEnd(s: string, i: nat): (k: nat)
    requires i <= |s|
    ensures i <= k <= |s|
    ensures forall j :: i <= j < k ==> IsDigit(s[j])
    ensures k < |s| ==> !IsDigit(s[k])
    decreases |s| - i
  {
    if i < |s| && IsDigit(s[i]) then DigitEnd(s, i + 1) else i
  }

  /** The number a run of decimal digits denotes, most significant first. */
  function DecimalValue(d: string): nat
    requires forall j :: 0 <= j < |d| ==> IsDigit(d[j])
  {
    if d == [] then 0 else DecimalValue(d[..|d| - 1]) * 10 + DigitValue(d[|d| - 1])
  }

  /** What strtoul(s, &end, 10) hands back: the value, the offset of `end`,
      and whether errno became ERANGE. */
  datatype Conversion = Conversion(value: nat, end: nat, rangeError: bool)

  /** strtoul(s, &end, 10) as glibc implements it: leading isspace bytes, an
      optional sign, then the longest run of digits. With no digits nothing
      is converted and `end` is `s` itself; a magnitude above ULONG_MAX sets
      ERANGE and yields ULONG_MAX; a minus sign negates modulo 2^64. */
  function Strtoul(s: string): (c: Conversion)
    ensures c.end <= |s|
    ensures c.value <= ULongMax
  {
    var i := SkipSpace(s, 0);
    var signed := i < |s| && (s[i] == '+' || s[i] == '-');
    var j := if signed then i + 1 else i;
    var k := DigitEnd(s, j);
    if k == j then Conversion(0, 0, false)
    else
      var m := DecimalValue(s[j..k]);
      if m > ULongMax then Conversion(ULongMax, k, true)
      else if s[i] == '-' then Conversion((ULongModulus - m) % ULongModulus, k, false)
      else Conversion(m, k, false)
  }

  /** Storing an unsigned long into an int keeps its low 32 bits as a two's
      complement value (what GCC does). */
  function ToCInt(v: nat): (r: int)
    ensures -0x8000_0000 <= r < 0x8000_0000
    ensures (r - v) % 0x1_0000_0000 == 0
  {
    var w := v % 0x1_0000_0000;
    if w < 0x8000_0000 then w else w - 0x1_0000_0000
  }

  /** A magnitude up to 2^31 negated by strtoul and stored into an int
      comes back as the negative number. */
  lemma NegatedToCInt(n: nat)
    requires 0 < n <= 0x8000_0000
    ensures ToCInt((ULongModulus - n) % ULongModulus) == -(n as int)
  {
    var v := ULongModulus - n;
    assert v % ULongModulus == v;
    assert v == 0xFFFF_FFFF * 0x1_0000_0000 + (0x1_0000_0000 - n);
    assert v % 0x1_0000_0000 == 0x1_0000_0000 - n;
  }

  /** The decimal digits of `n`, without sign or leading zeros. */
  function Decimal(n: nat): (d: string)
    ensures |d| > 0
    ensures forall j :: 0 <= j < |d| ==> IsDigit(d[j])
  {
    if n < 10 then [DigitChar(n)] else Decimal(n / 10) + [DigitChar(n % 10)]
  }

  lemma {:induction false} DecimalValueOfDecimal(n: nat)
    ensures DecimalValue(Decimal(n)) == n
  {
    if n >= 10 {
      var d := Decimal(n);
      assert d[..|d| - 1] == Decimal(n / 10);
      DecimalValueOfDecimal(n / 10);
    }
  }

  /** strtoul reads back every number it can represent from its decimal
      digits, consuming all of them. */
  lemma StrtoulDecimal(n: nat)
    requires n <= ULongMax
    ensures Strtoul(Decimal(n)) == Conversion(n, |Decimal(n)|, false)
  {
    var s := Decimal(n);
    assert !IsSpace(s[0]);
    assert SkipSpace(s, 0) == 0;
    assert DigitEnd(s, 0) == |s|;
    assert s[0..|s|] == s;
    DecimalValueOfDecimal(n);
  }

  /** Blanks followed by something else are skipped exactly. */
  lemma SkipSpaceAt(s: string, k: nat)
    requires k <= |s|
    requires forall j :: 0 <= j < k ==> IsSpace(s[j])
    requires k < |s| ==> !IsSpace(s[k])
    ensures SkipSpace(s, 0) == k
  {
  }

  /** A run of digits followed by a non-digit ends where the run does. */
  lemma DigitRun(s: string, j: nat, k: nat)
    requires j <= k <= |s|
    requires forall x :: j <= x < k ==> IsDigit(s[x])
    requires k < |s| ==> !IsDigit(s[k])
    ensures DigitEnd(s, j) == k
  {
  }

  /** strtoul once the blanks end at `i`, the digits run from `j` to `k`,
      and `j` is one past `i` exactly when a sign sits at `i`. */
  lemma StrtoulRun(s: string, i: nat, j: nat, k: nat)
    requires i <= j < k <= |s|
    requires SkipSpace(s, 0) == i && DigitEnd(s, j) == k
    requires j == if s[i] == '+' || s[i] == '-' then i + 1 else i
    ensures var m := DecimalValue(s[j..k]);
      Strtoul(s) == Conversion(if m > ULongMax then ULongMax
                               else if s[i] == '-' then (ULongModulus - m) % ULongModulus
                               else m,
                               k, m > ULongMax)
  {
  }

  /** Where the blanks and the sign of such a string lie. */
  lemma SignedShape(pre: string, sign: string, d: string, rest: string)
    requires forall j :: 0 <= j < |pre| ==> IsSpace(pre[j])
    requires sign == "" || sign == "+" || sign == "-"
    requires d != [] && IsDigit(d[0])
    ensures var s := pre + sign + d + rest;
      && SkipSpace(s, 0) == |pre|
      && s[|pre|] == (if sign == "" then d[0] else sign[0])
  {
    var s := pre + sign + d + rest;
    assert forall x :: 0 <= x < |pre| ==> s[x] == pre[x];
    assert s[|pre|] == (if sign == "" then d[0] else sign[0]);
    SkipSpaceAt(s, |pre|);
  }

  /** Where the digits of such a string end. */
  lemma DigitsShape(u: string, d: string, rest: string)
    requires forall j :: 0 <= j < |d| ==> IsDigit(d[j])
    requires rest == [] || !IsDigit(rest[0])
    ensures DigitEnd(u + d + rest, |u|) == |u| + |d|
    ensures (u + d + rest)[|u|..|u| + |d|] == d
  {
    var s := u + d + rest;
    assert forall x :: |u| <= x < |u| + |d| ==> s[x] == d[x - |u|];
    assert |u| + |d| < |s| ==> s[|u| + |d|] == rest[0];
    DigitRun(s, |u|, |u| + |d|);
  }

  /** What strtoul makes of blanks, a sign and a number's digits followed by
      anything that is not a digit: the digits are consumed; a magnitude
      above ULONG_MAX saturates with ERANGE whatever the sign; otherwise a
      minus sign negates modulo 2^64. */
  lemma StrtoulSigned(pre: string, sign: string, n: nat, rest: string)
    requires forall j :: 0 <= j < |pre| ==> IsSpace(pre[j])
    requires sign == "" || sign == "+" || sign == "-"
    requires rest == [] || !IsDigit(rest[0])
    ensures Strtoul(pre + sign + Decimal(n) + rest) ==
              Conversion(if n > ULongMax then ULongMax
                         else if sign == "-" then (ULongModulus - n) % ULongModulus
                         else n,
                         |pre| + |sign| + |Decimal(n)|,
                         n > ULongMax)
  {
    var d := Decimal(n);
    var s := pre + sign + d + rest;
    var j := |pre| + |sign|;
    SignedShape(pre, sign, d, rest);
    DigitsShape(pre + sign, d, rest);
    DecimalValueOfDecimal(n);
    assert (s[|pre|] == '+' || s[|pre|] == '-') == (sign != "");
    assert (s[|pre|] == '-') == (sign == "-");
    StrtoulRun(s, |pre|, j, j + |d|);
  }

  /** A minus sign straight before a representable number's digits:
      everything is consumed and the value is negated modulo 2^64. */
  lemma StrtoulNegative(n: nat)
    requires n <= ULongMax
    ensures Strtoul("-" + Decimal(n)) == Conversion((ULongModulus - n) % ULongModulus, 1 + |Decimal(n)|, false)
  {
    var d := Decimal(n);
    var s := "-" + d;
    SkipSpaceAt(s, 0);
    assert forall x :: 1 <= x < |s| ==> s[x] == d[x - 1];
    DigitRun(s, 1, |s|);
    assert s[1..|s|] == d;
    DecimalValueOfDecimal(n);
    StrtoulRun(s, 0, 1, |s|);
  }

  /** Without a digit after the blanks and the optional sign strtoul
      converts nothing: the value is 0, `end` is the start of the string,
      and errno is left alone. */
  lemma StrtoulNoDigits(pre: string, sign: string, rest: string)
    requires forall j :: 0 <= j < |pre| ==> IsSpace(pre[j])
    requires sign == "" || sign == "+" || sign == "-"
    requires rest != [] ==> !IsDigit(rest[0])
    requires rest != [] && sign == "" ==> !IsSpace(rest[0]) && rest[0] != '+' && rest[0] != '-'
    ensures Strtoul(pre + sign + rest) == Conversion(0, 0, false)
  {
    var s := pre + sign + rest;
    var j := |pre| + |sign|;
    assert forall x :: 0 <= x < |pre| ==> s[x] == pre[x];
    assert |pre| < |s| ==> s[|pre|] == (if sign == "" then rest[0] else sign[0]);
    SkipSpaceAt(s, |pre|);
    assert j < |s| ==> s[j] == rest[0];
  }
}

=== FILE: findings.dfy ===
/**
 Two places where read_config does not do what its own code evidently aims
 at, each shown on the code as written and proved fixed in the corrected
 mode of the scanner.

 1. A pass that finds no terminator keeps the NULs it wrote. The next pass,
    after more bytes arrive, sees a NUL where the line's `=` was and drops
    the whole line. A line is therefore lost whenever a read ends between
    its `=` and its `\n`; a boundary anywhere else is harmless.
 2. At end of file the code stores `\n` at filebuf[pos], one past the
    scanned range, so an unterminated last line is never interpreted.
 */
module ConfigFindings {
  import opened Common
  import opened CText
  import opened ConfigParse
  import opened ConfigProps

  // ------------------------------------------------------ common steps

  /** A key with no byte that ends a key or a line. */
  predicate PlainKey(k: string) {
    forall j :: 0 <= j < |k| ==> !EndsKey(k[j]) && !Ends(k[j], false)
  }

  /** A value fragment with no `=`, NUL or byte that ends a line. */
  predicate PlainValue(v: string) {
    forall j :: 0 <= j < |v| ==> v[j] != '=' && v[j] != NUL && !Ends(v[j], false)
  }

  /** Bytes with no terminator outside a comment. */
  predicate Unended(x: seq<char>) {
    forall j :: 0 <= j < |x| ==> !Ends(x[j], false)
  }

  /** Bytes with neither a terminator nor an `=`. */
  predicate Inert(x: seq<char>) {
    forall j :: 0 <= j < |x| ==> !Ends(x[j], false) && x[j] != '='
  }

  /** A state with an empty buffer drains to itself. */
  lemma DrainEmpty(mode: ScanMode, p: Parser, decode: Decoder)
    requires p.buf == []
    ensures Drain(mode, p, decode) == Ok(p)
  {
    assert LineStep(mode, p, decode) == Stalled(p);
  }

  /** A buffer without a terminator drains in one stalled pass. */
  lemma DrainStalled(mode: ScanMode, p: Parser, decode: Decoder)
    requires forall j :: 0 <= j < |p.buf| ==> !Ends(p.buf[j], p.comment)
    ensures LineStep(mode, p, decode).Stalled?
    ensures Drain(mode, p, decode) == Ok(LineStep(mode, p, decode).next)
  {
  }

  /** One read whose bytes fit the buffer: they are appended and drained. */
  lemma ReadChunk(mode: ScanMode, p: Parser, x: seq<char>, rest: seq<ReadResult<char>>, decode: Decoder)
    requires |x| > 0 && |p.buf| + |x| <= MaxPos
    ensures var d := Drain(mode, Parser(p.buf + x, p.comment, p.cfg), decode);
      ReadLoop(mode, p, [Got(x)] + rest, decode) ==
        if d.Err? then Err(d.error) else ReadLoop(mode, d.value, rest, decode)
  {
    var chunks := [Got(x)] + rest;
    assert chunks[0] == Got(x);
    assert chunks[1..] == rest;
    assert Clamp(Got(x), MaxPos - |p.buf|) == Got(x);
  }

  /** The last read of a file: its bytes are appended, drained, and the end
      of file follows. */
  lemma ReadLast(mode: ScanMode, p: Parser, x: seq<char>, decode: Decoder)
    requires |x| > 0 && |p.buf| + |x| <= MaxPos
    ensures var d := Drain(mode, Parser(p.buf + x, p.comment, p.cfg), decode);
      ReadLoop(mode, p, [Got(x)], decode) ==
        if d.Err? then Err(d.error) else EndOfFile(mode, d.value, decode)
  {
    ReadChunk(mode, p, x, [], decode);
    assert [Got(x)] + [] == [Got(x)];
  }

  /** Two reads, the second one the last. */
  lemma ReadTwo(mode: ScanMode, p: Parser, x: seq<char>, y: seq<char>, decode: Decoder)
    requires |x| > 0 && |p.buf| + |x| <= MaxPos
    ensures var d := Drain(mode, Parser(p.buf + x, p.comment, p.cfg), decode);
      ReadLoop(mode, p, [Got(x), Got(y)], decode) ==
        if d.Err? then Err(d.error) else ReadLoop(mode, d.value, [Got(y)], decode)
  {
    ReadChunk(mode, p, x, [Got(y)], decode);
    assert [Got(x)] + [Got(y)] == [Got(x), Got(y)];
  }

  /** A line outside a comment, followed by `\n` and nothing else, drains to
      an empty buffer after being interpreted. */
  lemma DrainLine(mode: ScanMode, line: string, cfg: Config, decode: Decoder)
    requires Unended(line)
    ensures var r := LineEffect(cfg, line, decode);
      Drain(mode, Parser(line + "\n", false, cfg), decode) ==
        if r.Err? then Err(r.error) else Ok(Parser([], false, r.value))
  {
    var p := Parser(line + "\n", false, cfg);
    assert forall j :: 0 <= j < |line| ==> p.buf[j] == line[j];
    assert p.buf[|line|] == '\n';
    assert TerminatorIndex(p.buf, false) == |line|;
    LineStepIsReference(mode, p, decode);
    assert p.buf[..|line|] == line;
    assert p.buf[|line| + 1..] == [];
    var r := LineEffect(cfg, line, decode);
    if r.Ok? {
      DrainEmpty(mode, Parser([], false, r.value), decode);
    }
  }

  /** A line without `=` has no value. */
  lemma NoEqualsNoValue(line: string)
    requires forall j :: 0 <= j < |line| ==> line[j] != '='
    ensures LineValue(line) == None
  {
  }

  /** End of file on an empty buffer only checks the secret. */
  lemma EndOfFileEmpty(mode: ScanMode, cfg: Config, decode: Decoder)
    ensures EndOfFile(mode, Parser([], false, cfg), decode) == Finish(cfg)
  {
    DrainEmpty(mode, Parser([], false, cfg), decode);
    if mode == Corrected {
      DrainLine(mode, [], cfg, decode);
      NoEqualsNoValue([]);
      assert [] + "\n" == "\n";
    }
  }

  /** A file holding one line, read in one piece. */
  lemma ReadOneLine(mode: ScanMode, line: string, decode: Decoder)
    requires Unended(line) && |line| + 1 <= MaxPos
    ensures var r := LineEffect(Start.cfg, line, decode);
      ReadConfig(mode, Opened([Got(line + "\n")]), decode) ==
        if r.Err? then Err(r.error) else Finish(r.value)
  {
    ReadLast(mode, Start, line + "\n", decode);
    assert Start.buf + (line + "\n") == line + "\n";
    DrainLine(mode, line, Start.cfg, decode);
    var r := LineEffect(Start.cfg, line, decode);
    if r.Ok? {
      EndOfFileEmpty(mode, r.value, decode);
    }
  }

  /** `k=v` for a plain key and value: no terminator, one `=` right after
      the key, and the reference split gives back `k` and `v`. */
  lemma JoinedLine(k: string, v: string)
    requires PlainKey(k) && PlainValue(v) && (v == [] || !IsBlank(v[0]))
    ensures var x := k + "=" + v;
      && Unended(x)
      && FirstEqual(x, 0) == |k|
      && (forall j :: 0 <= j < |x| && j != |k| ==> x[j] != '=')
      && LineKey(x) == k && LineValue(x) == Some(v)
  {
    var x := k + "=" + v;
    assert x[|k|] == '=';
    forall j | 0 <= j < |x|
      ensures !Ends(x[j], false) && (j != |k| ==> x[j] != '=')
    {
      if j < |k| {
        assert x[j] == k[j];
      } else if j > |k| {
        assert x[j] == v[j - |k| - 1];
      }
    }
    assert x == k + "" + "=" + "" + v;
    SplitOfJoinedLine(k, "", "", v);
  }

  /** A `secret` line whose value decodes stores the decoded bytes. */
  lemma InterpretSecret(cfg: Config, k: string, v: string, decode: Decoder, b: seq<byte>)
    requires CaseEqual(k, "secret") && decode(v) == Decoded(b)
    ensures Interpret(cfg, k, v, decode) == Ok(cfg.(secret := Some(b)))
  {
    assert !CaseEqual(k, "type");
  }

  /** In either mode, `key=value\n` read in one piece is interpreted. */
  lemma WholeLineRead(mode: ScanMode, k: string, v: string, decode: Decoder)
    requires PlainKey(k) && PlainValue(v) && (v == [] || !IsBlank(v[0]))
    requires |k| + |v| + 2 <= MaxPos
    ensures var r := Interpret(Start.cfg, k, v, decode);
      ReadConfig(mode, Opened([Got(k + "=" + v + "\n")]), decode) ==
        if r.Err? then Err(r.error) else Finish(r.value)
  {
    JoinedLine(k, v);
    ReadOneLine(mode, k + "=" + v, decode);
  }

  /** A file holding only a decodable `secret` line ending in `\n` yields
      that secret. */
  lemma SecretLineRead(mode: ScanMode, k: string, v: string, decode: Decoder, b: seq<byte>)
    requires PlainKey(k) && PlainValue(v) && |v| > 0 && !IsBlank(v[0])
    requires |k| + |v| + 2 <= MaxPos
    requires CaseEqual(k, "secret") && decode(v) == Decoded(b) && |b| > 0
    ensures ReadConfig(mode, Opened([Got(k + "=" + v + "\n")]), decode) == Ok(Start.cfg.(secret := Some(b)))
  {
    WholeLineRead(mode, k, v, decode);
    InterpretSecret(Start.cfg, k, v, decode, b);
  }

  // ------------------------------------------- 1. a line split across reads

  /** As written: a stalled pass over a line with exactly one `=` nulls it,
      leaving a buffer with no `=` at all. */
  lemma StallNullsEquals(a: seq<char>, cfg: Config, decode: Decoder) returns (s: seq<char>)
    requires Unended(a)
    requires FirstEqual(a, 0) < |a|
    requires forall j :: 0 <= j < |a| && j != FirstEqual(a, 0) ==> a[j] != '='
    ensures Drain(AsWritten, Parser(a, false, cfg), decode) == Ok(Parser(s, false, cfg))
    ensures |s| == |a|
    ensures Inert(s)
  {
    var p := Parser(a, false, cfg);
    DrainStalled(AsWritten, p, decode);
    var o := ScanLine(a, false);
    StalledScanNullsEquals(a, a, 0, None);
    ScanWritesNul(a, 0, None, false);
    s := o.scratch;
    assert LineStep(AsWritten, p, decode).next == p.(buf := s);
  }

  lemma InertJoin(s: seq<char>, w: seq<char>)
    requires Inert(s) && Inert(w)
    ensures Inert(s + w)
  {
    forall j | 0 <= j < |s + w|
      ensures !Ends((s + w)[j], false) && (s + w)[j] != '='
    {
      if j < |s| {
        assert (s + w)[j] == s[j];
      } else {
        assert (s + w)[j] == w[j - |s|];
      }
    }
  }

  /** As written: once the `=` of a line is gone, the rest of the line
      arriving in the last read changes nothing. */
  lemma LineWithoutItsEquals(s: seq<char>, w: seq<char>, cfg: Config, decode: Decoder)
    requires Inert(s) && Inert(w)
    requires |s| + |w| + 1 <= MaxPos
    ensures ReadLoop(AsWritten, Parser(s, false, cfg), [Got(w + "\n")], decode) == Finish(cfg)
  {
    var q := Parser(s, false, cfg);
    ReadLast(AsWritten, q, w + "\n", decode);
    assert s + (w + "\n") == (s + w) + "\n";
    InertJoin(s, w);
    DrainLine(AsWritten, s + w, cfg, decode);
    NoEqualsNoValue(s + w);
    EndOfFileEmpty(AsWritten, cfg, decode);
  }

  /** As written: a line with one `=`, delivered in two reads split after
      that `=`, leaves the config as it was. */
  lemma SplitAfterEquals(a: seq<char>, w: seq<char>, decode: Decoder)
    requires Unended(a) && Inert(w)
    requires FirstEqual(a, 0) < |a|
    requires forall j :: 0 <= j < |a| && j != FirstEqual(a, 0) ==> a[j] != '='
    requires |a| + |w| + 1 <= MaxPos
    ensures ReadConfig(AsWritten, Opened([Got(a), Got(w + "\n")]), decode) == Finish(Start.cfg)
  {
    ReadTwo(AsWritten, Start, a, w + "\n", decode);
    assert Start.buf + a == a;
    var s := StallNullsEquals(a, Start.cfg, decode);
    LineWithoutItsEquals(s, w, Start.cfg, decode);
  }

  lemma PlainValueJoin(v1: string, v2: string)
    requires PlainValue(v1) && PlainValue(v2)
    ensures PlainValue(v1 + v2)
  {
    forall j | 0 <= j < |v1 + v2|
      ensures var c := (v1 + v2)[j]; c != '=' && c != NUL && !Ends(c, false)
    {
      if j < |v1| {
        assert (v1 + v2)[j] == v1[j];
      } else {
        assert (v1 + v2)[j] == v2[j - |v1|];
      }
    }
  }

  lemma PlainValueInert(v: string)
    requires PlainValue(v)
    ensures Inert(v)
  {
  }

  lemma Regroup(k: string, v1: string, v2: string)
    ensures k + "=" + v1 + v2 + "\n" == k + "=" + (v1 + v2) + "\n"
  {
  }

  /** As written: when a read ends just after the `=` of a line, the next
      pass finds the `=` turned into NUL and ignores the line. Split after
      its `=`, a `secret` line yields no secret; read whole, it yields one. */
  lemma SplitLineDropped(k: string, v1: string, v2: string, decode: Decoder, b: seq<byte>)
    requires PlainKey(k) && PlainValue(v1) && PlainValue(v2)
    requires |v1| > 0 && !IsBlank(v1[0])
    requires |k| + |v1| + |v2| + 2 <= MaxPos
    requires CaseEqual(k, "secret") && decode(v1 + v2) == Decoded(b) && |b| > 0
    ensures ReadConfig(AsWritten, Opened([Got(k + "=" + v1), Got(v2 + "\n")]), decode) == Err(NoSecret)
    ensures ReadConfig(AsWritten, Opened([Got(k + "=" + v1 + v2 + "\n")]), decode) ==
              Ok(Start.cfg.(secret := Some(b)))
  {
    PlainValueJoin(v1, v2);
    Regroup(k, v1, v2);
    SecretLineRead(AsWritten, k, v1 + v2, decode, b);
    JoinedLine(k, v1);
    PlainValueInert(v2);
    SplitAfterEquals(k + "=" + v1, v2, decode);
  }

  /** Appending bytes to a buffer does not move its first terminator. */
  lemma TerminatorExtends(x: seq<char>, y: seq<char>, comment: bool)
    requires TerminatorIndex(x, comment) < |x|
    ensures TerminatorIndex(x + y, comment) == TerminatorIndex(x, comment)
  {
    var k := TerminatorIndex(x, comment);
    assert (x + y)[k] == x[k];
    assert forall j :: 0 <= j < k ==> (x + y)[j] == x[j];
    TerminatorAt(x + y, comment, k);
  }

  /** The reference step on a longer buffer takes the same line, and
      carries the extra bytes along. */
  lemma ReferenceStepExtends(p: Parser, y: seq<char>, decode: Decoder)
    requires TerminatorIndex(p.buf, p.comment) < |p.buf|
    ensures TerminatorIndex(p.buf + y, p.comment) < |p.buf + y|
    ensures var s := ReferenceStep(p, decode);
      var s' := ReferenceStep(p.(buf := p.buf + y), decode);
      && !s.Stalled?
      && (s.Consumed? ==> s' == Consumed(s.next.(buf := s.next.buf + y)))
      && (s.Failed? ==> s' == s)
  {
    var k := TerminatorIndex(p.buf, p.comment);
    var p' := p.(buf := p.buf + y);
    TerminatorExtends(p.buf, y, p.comment);
    assert p'.buf[..k] == p.buf[..k];
    assert p'.buf[k + 1..] == p.buf[k + 1..] + y;
    assert p'.buf[k] == p.buf[k];
  }

  /** In the corrected mode a line step on a longer buffer takes the same
      line, and carries the extra bytes along. */
  lemma LineStepExtends(p: Parser, y: seq<char>, decode: Decoder)
    ensures match LineStep(Corrected, p, decode)
      case Consumed(q) => LineStep(Corrected, p.(buf := p.buf + y), decode) == Consumed(q.(buf := q.buf + y))
      case Failed(e) => LineStep(Corrected, p.(buf := p.buf + y), decode) == Failed(e)
      case Stalled(_) => true
  {
    if TerminatorIndex(p.buf, p.comment) < |p.buf| {
      ReferenceStepExtends(p, y, decode);
      LineStepIsReference(Corrected, p, decode);
      LineStepIsReference(Corrected, p.(buf := p.buf + y), decode);
    } else {
      assert LineStep(Corrected, p, decode).Stalled?;
    }
  }

  /** Corrected: draining after appending bytes is draining first, then
      appending and draining again. */
  lemma {:induction false} DrainAppend(p: Parser, y: seq<char>, decode: Decoder)
    ensures var d := Drain(Corrected, p, decode);
      Drain(Corrected, p.(buf := p.buf + y), decode) ==
        if d.Err? then d else Drain(Corrected, d.value.(buf := d.value.buf + y), decode)
    decreases |p.buf|
  {
    LineStepExtends(p, y, decode);
    match LineStep(Corrected, p, decode)
    case Consumed(q) =>
      DrainAppend(q, y, decode);
    case Failed(e) =>
    case Stalled(q) =>
  }

  lemma ChunkLists<T>(a: T, b: T, rest: seq<T>)
    ensures [a, b] + rest == [a] + ([b] + rest)
  {
  }

  lemma BufAssoc(x: seq<char>, y: seq<char>, z: seq<char>)
    ensures (x + y) + z == x + (y + z)
  {
  }

  /** Corrected: where a read boundary falls does not matter. Reading `a`
      and then `b` gives the result of reading `a + b` at once. */
  lemma ReadBoundaryIrrelevant(p: Parser, a: seq<char>, b: seq<char>, rest: seq<ReadResult<char>>, decode: Decoder)
    requires |a| > 0 && |b| > 0
    requires |p.buf| + |a| + |b| <= MaxPos
    ensures ReadLoop(Corrected, p, [Got(a), Got(b)] + rest, decode) ==
            ReadLoop(Corrected, p, [Got(a + b)] + rest, decode)
  {
    ChunkLists(Got(a), Got(b), rest);
    BufAssoc(p.buf, a, b);
    var pa := Parser(p.buf + a, p.comment, p.cfg);
    DrainAppend(pa, b, decode);
    ReadChunk(Corrected, p, a + b, rest, decode);
    ReadChunk(Corrected, p, a, [Got(b)] + rest, decode);
    var first := Drain(Corrected, pa, decode);
    if first.Ok? {
      ReadChunk(Corrected, first.value, b, rest, decode);
    }
  }

  /** Corrected: a line split after its `=` across two reads is kept. */
  lemma SplitLineKept(k: string, v1: string, v2: string, decode: Decoder, b: seq<byte>)
    requires PlainKey(k) && PlainValue(v1) && PlainValue(v2)
    requires |v1| > 0 && !IsBlank(v1[0])
    requires |k| + |v1| + |v2| + 2 <= MaxPos
    requires CaseEqual(k, "secret") && decode(v1 + v2) == Decoded(b) && |b| > 0
    ensures ReadConfig(Corrected, Opened([Got(k + "=" + v1), Got(v2 + "\n")]), decode) ==
              Ok(Start.cfg.(secret := Some(b)))
  {
    PlainValueJoin(v1, v2);
    Regroup(k, v1, v2);
    SecretLineRead(Corrected, k, v1 + v2, decode, b);
    Regroup2(k, v1, v2);
    ReadBoundaryPair(Start, k + "=" + v1, v2 + "\n", decode);
  }

  lemma Regroup2(k: string, v1: string, v2: string)
    ensures k + "=" + v1 + v2 + "\n" == (k + "=" + v1) + (v2 + "\n")
  {
  }

  /** Corrected: two last reads give what their concatenation gives. */
  lemma ReadBoundaryPair(p: Parser, a: seq<char>, b: seq<char>, decode: Decoder)
    requires |a| > 0 && |b| > 0
    requires |p.buf| + |a| + |b| <= MaxPos
    ensures ReadLoop(Corrected, p, [Got(a), Got(b)], decode) == ReadLoop(Corrected, p, [Got(a + b)], decode)
  {
    ReadBoundaryIrrelevant(p, a, b, [], decode);
    NoRest(Got(a), Got(b), Got(a + b));
  }

  lemma NoRest<T>(x: T, y: T, z: T)
    ensures [x, y] + [] == [x, y] && [z] + [] == [z]
  {
  }

  // --------------------------- 1, as written: when a boundary is harmless

  /** The reference loop after appending bytes is the reference loop, then
      appending and looping again. */
  lemma ReferenceDrainAppend(p: Parser, y: seq<char>, decode: Decoder)
    ensures var r := ReferenceDrain(p, decode);
      ReferenceDrain(p.(buf := p.buf + y), decode) ==
        if r.Err? then r else ReferenceDrain(r.value.(buf := r.value.buf + y), decode)
  {
    DrainAppend(p, y, decode);
    DrainIsReference(Corrected, p, decode);
    DrainIsReference(Corrected, p.(buf := p.buf + y), decode);
    var r := ReferenceDrain(p, decode);
    if r.Ok? {
      DrainIsReference(Corrected, r.value.(buf := r.value.buf + y), decode);
    }
  }

  /** `w` is `u` with the blanks before `m` nulled, and neither has an `=`
      before `m`. */
  ghost predicate BlankedBefore(u: seq<char>, w: seq<char>, m: nat) {
    && m <= |u| == |w|
    && (forall j :: 0 <= j < m ==> u[j] != '=' && w[j] == NullBlank(u[j]))
    && (forall j :: m <= j < |u| ==> w[j] == u[j])
  }

  lemma BlankedPrefix(u: seq<char>, w: seq<char>, m: nat, t: nat)
    requires BlankedBefore(u, w, m) && m <= t <= |u|
    ensures BlankedBefore(u[..t], w[..t], m)
  {
  }

  lemma BlankedTerminator(u: seq<char>, w: seq<char>, m: nat, comment: bool)
    requires BlankedBefore(u, w, m)
    ensures TerminatorIndex(u, comment) == TerminatorIndex(w, comment)
  {
  }

  lemma BlankedFirstEqual(u: seq<char>, w: seq<char>, m: nat)
    requires BlankedBefore(u, w, m)
    ensures m <= FirstEqual(u, 0) == FirstEqual(w, 0)
  {
  }

  lemma SkipBlanksSameTail(u: seq<char>, w: seq<char>, i: nat)
    requires i <= |u| == |w|
    requires forall j :: i <= j < |u| ==> u[j] == w[j]
    ensures SkipBlanks(u, i) == SkipBlanks(w, i)
  {
  }

  /** Nulling blanks before the first `=` changes neither the key nor the
      value of a line. */
  lemma BlankedLine(u: seq<char>, w: seq<char>, m: nat)
    requires BlankedBefore(u, w, m)
    ensures LineKey(u) == LineKey(w) && LineValue(u) == LineValue(w)
  {
    BlankedFirstEqual(u, w, m);
    var e := FirstEqual(u, 0);
    if e < |u| {
      SkipBlanksSameTail(u, w, e + 1);
      CStringSameTail(u, w, SkipBlanks(u, e + 1));
    }
    var k := KeyEnd(u, 0);
    assert u[..k] == w[..k];
  }

  /** A stalled pass over already nulled bytes leaves what it leaves over the
      original ones. */
  lemma BlankedNulled(u: seq<char>, w: seq<char>, m: nat)
    requires BlankedBefore(u, w, m)
    ensures Nulled(u) == Nulled(w)
  {
    BlankedFirstEqual(u, w, m);
    var a := Nulled(u);
    var b := Nulled(w);
    assert forall j :: 0 <= j < |a| ==> a[j] == b[j];
  }

  /** As written: the NULs a stalled pass leaves over a line with no `=` are
      invisible to every later pass, whatever bytes are appended. */
  lemma StallInvisible(q: Parser, y: seq<char>, decode: Decoder)
    requires TerminatorIndex(q.buf, q.comment) == |q.buf| && !q.comment
    requires forall j :: 0 <= j < |q.buf| ==> q.buf[j] != '='
    ensures Drain(AsWritten, q.(buf := q.buf + y), decode) ==
            Drain(AsWritten, q.(buf := Nulled(q.buf) + y), decode)
  {
    var m := |q.buf|;
    var u := q.buf + y;
    var w := Nulled(q.buf) + y;
    assert FirstEqual(q.buf, 0) == m;
    assert BlankedBefore(u, w, m);
    BlankedTerminator(u, w, m, false);
    var pu := q.(buf := u);
    var pw := q.(buf := w);
    var t := TerminatorIndex(u, false);
    if t == |u| {
      StalledStep(AsWritten, pu, decode);
      StalledStep(AsWritten, pw, decode);
      BlankedNulled(u, w, m);
    } else {
      assert m <= t;
      BlankedPrefix(u, w, m, t);
      BlankedLine(u[..t], w[..t], m);
      SameLineSameStep(pu, pw, t, decode);
      LineStepIsReference(AsWritten, pu, decode);
      LineStepIsReference(AsWritten, pw, decode);
    }
    SameStepSameDrain(AsWritten, pu, pw, decode);
  }

  /** Two buffers that end their first line at the same index, with the same
      key and value and the same bytes from there on, take the same step. */
  lemma SameLineSameStep(p1: Parser, p2: Parser, t: nat, decode: Decoder)
    requires p1.comment == p2.comment == false && p1.cfg == p2.cfg
    requires t < |p1.buf| == |p2.buf|
    requires TerminatorIndex(p1.buf, false) == TerminatorIndex(p2.buf, false) == t
    requires LineKey(p1.buf[..t]) == LineKey(p2.buf[..t])
    requires LineValue(p1.buf[..t]) == LineValue(p2.buf[..t])
    requires forall j :: t <= j < |p1.buf| ==> p1.buf[j] == p2.buf[j]
    ensures ReferenceStep(p1, decode) == ReferenceStep(p2, decode)
  {
    assert p1.buf[t + 1..] == p2.buf[t + 1..];
  }

  lemma SameStepSameDrain(mode: ScanMode, p1: Parser, p2: Parser, decode: Decoder)
    requires LineStep(mode, p1, decode) == LineStep(mode, p2, decode)
    ensures Drain(mode, p1, decode) == Drain(mode, p2, decode)
  {
  }

  /** The bytes a drain leaves over hold no `=` unless a comment is open:
      no line is pending past its `=`. */
  predicate NoPendingEquals(p: Parser, decode: Decoder) {
    var r := ReferenceDrain(p, decode);
    r.Ok? && !r.value.comment ==> forall j :: 0 <= j < |r.value.buf| ==> r.value.buf[j] != '='
  }

  /** As written: when no line is pending past its `=`, draining after
      appending bytes is draining first, then appending and draining again,
      just as in the corrected mode. */
  lemma DrainAppendAsWritten(p: Parser, y: seq<char>, decode: Decoder)
    requires NoPendingEquals(p, decode)
    ensures var d := Drain(AsWritten, p, decode);
      Drain(AsWritten, p.(buf := p.buf + y), decode) ==
        if d.Err? then d else Drain(AsWritten, d.value.(buf := d.value.buf + y), decode)
  {
    DrainIsReference(AsWritten, p, decode);
    DrainIsReference(AsWritten, p.(buf := p.buf + y), decode);
    ReferenceDrainAppend(p, y, decode);
    var r := ReferenceDrain(p, decode);
    if r.Ok? {
      var q := r.value;
      DrainIsReference(AsWritten, q.(buf := q.buf + y), decode);
      if !q.comment {
        StallInvisible(q, y, decode);
      }
    }
  }

  /** As written: a read boundary is harmless when no line is pending past
      its `=` at it. Reading `a` and then `b` gives the result of reading
      `a + b` at once. */
  lemma ReadBoundaryAsWritten(p: Parser, a: seq<char>, b: seq<char>, rest: seq<ReadResult<char>>, decode: Decoder)
    requires |a| > 0 && |b| > 0
    requires |p.buf| + |a| + |b| <= MaxPos
    requires NoPendingEquals(p.(buf := p.buf + a), decode)
    ensures ReadLoop(AsWritten, p, [Got(a), Got(b)] + rest, decode) ==
            ReadLoop(AsWritten, p, [Got(a + b)] + rest, decode)
  {
    ChunkLists(Got(a), Got(b), rest);
    BufAssoc(p.buf, a, b);
    var pa := Parser(p.buf + a, p.comment, p.cfg);
    DrainAppendAsWritten(pa, b, decode);
    ReadChunk(AsWritten, p, a + b, rest, decode);
    ReadChunk(AsWritten, p, a, [Got(b)] + rest, decode);
    var first := Drain(AsWritten, pa, decode);
    if first.Ok? {
      ReadChunk(AsWritten, first.value, b, rest, decode);
    }
  }

  /** As written: a `secret` line split inside its key, before the `=`, is
      kept. */
  lemma SplitKeyKept(k: string, n: nat, v: string, decode: Decoder, b: seq<byte>)
    requires PlainKey(k) && PlainValue(v) && |v| > 0 && !IsBlank(v[0])
    requires 0 < n <= |k|
    requires |k| + |v| + 2 <= MaxPos
    requires CaseEqual(k, "secret") && decode(v) == Decoded(b) && |b| > 0
    ensures ReadConfig(AsWritten, Opened([Got(k[..n]), Got(k[n..] + "=" + v + "\n")]), decode) ==
              Ok(Start.cfg.(secret := Some(b)))
  {
    var a := k[..n];
    var c := k[n..] + "=" + v + "\n";
    var pa := Start.(buf := Start.buf + a);
    assert pa.buf == a;
    assert ReferenceDrain(pa, decode) == Ok(pa);
    ReadBoundaryAsWritten(Start, a, c, [], decode);
    NoRest(Got(a), Got(c), Got(a + c));
    RegroupKey(k, n, v);
    SecretLineRead(AsWritten, k, v, decode, b);
  }

  lemma RegroupKey(k: string, n: nat, v: string)
    requires n <= |k|
    ensures k[..n] + (k[n..] + "=" + v + "\n") == k + "=" + v + "\n"
  {
    assert k == k[..n] + k[n..];
  }

  // -------------------------------------------- 2. an unterminated last line

  /** As written: bytes without a terminator, the last a file holds, are
      never interpreted. */
  lemma UnterminatedTailIgnored(x: seq<char>, decode: Decoder)
    requires Unended(x) && 0 < |x| <= MaxPos
    ensures ReadConfig(AsWritten, Opened([Got(x)]), decode) == Finish(Start.cfg)
  {
    ReadLast(AsWritten, Start, x, decode);
    assert Start.buf + x == x;
    var p := Parser(x, false, Start.cfg);
    DrainStalled(AsWritten, p, decode);
    var q := LineStep(AsWritten, p, decode).next;
    EndOfFileIgnoresTail(q, [], decode);
  }

  /** As written: a last line without `\n` is ignored. A file holding only
      a `secret` line has no secret unless the line ends in `\n`. */
  lemma FinalLineIgnored(k: string, v: string, decode: Decoder, b: seq<byte>)
    requires PlainKey(k) && PlainValue(v) && |v| > 0 && !IsBlank(v[0])
    requires |k| + |v| + 2 <= MaxPos
    requires CaseEqual(k, "secret") && decode(v) == Decoded(b) && |b| > 0
    ensures ReadConfig(AsWritten, Opened([Got(k + "=" + v)]), decode) == Err(NoSecret)
    ensures ReadConfig(AsWritten, Opened([Got(k + "=" + v + "\n")]), decode) == Ok(Start.cfg.(secret := Some(b)))
  {
    SecretLineRead(AsWritten, k, v, decode, b);
    JoinedLine(k, v);
    UnterminatedTailIgnored(k + "=" + v, decode);
  }

  /** Corrected: a buffer ending in `\n` drains to nothing, outside a comment. */
  lemma {:induction false} DrainToNewline(p: Parser, decode: Decoder)
    requires |p.buf| > 0 && p.buf[|p.buf| - 1] == '\n'
    ensures var r := Drain(Corrected, p, decode); r.Ok? ==> r.value.buf == [] && !r.value.comment
    decreases |p.buf|
  {
    match LineStep(Corrected, p, decode)
    case Consumed(q) =>
      if q.buf != [] {
        DrainToNewline(q, decode);
      }
    case Failed(e) =>
    case Stalled(q) =>
  }

  /** Corrected: at end of file, draining the buffer with a `\n` appended
      and then reaching end of file again changes nothing. */
  lemma EndOfFileAfterNewline(q: Parser, decode: Decoder)
    ensures var d := Drain(Corrected, Parser(q.buf + ['\n'], q.comment, q.cfg), decode);
      EndOfFile(Corrected, q, decode) == if d.Err? then Err(d.error) else EndOfFile(Corrected, d.value, decode)
  {
    var qn := Parser(q.buf + ['\n'], q.comment, q.cfg);
    DrainToNewline(qn, decode);
    var d := Drain(Corrected, qn, decode);
    if d.Ok? {
      assert d.value == Parser([], false, d.value.cfg);
      EndOfFileEmpty(Corrected, d.value.cfg, decode);
    }
  }

  /** Corrected: the end of file terminates the last line, so a missing
      final `\n` makes no difference. */
  lemma FinalNewlineOptional(p: Parser, x: seq<char>, decode: Decoder)
    requires |x| > 0
    requires |p.buf| + |x| + 1 <= MaxPos
    ensures ReadLoop(Corrected, p, [Got(x)], decode) == ReadLoop(Corrected, p, [Got(x + ['\n'])], decode)
  {
    BufAssoc(p.buf, x, ['\n']);
    var px := Parser(p.buf + x, p.comment, p.cfg);
    DrainAppend(px, ['\n'], decode);
    ReadLast(Corrected, p, x, decode);
    ReadLast(Corrected, p, x + ['\n'], decode);
    var d := Drain(Corrected, px, decode);
    if d.Ok? {
      EndOfFileAfterNewline(d.value, decode);
    }
  }

  /** Corrected: a file holding only a decodable `secret` line yields that
      secret whether or not the line ends in `\n`. */
  lemma FinalLineRead(k: string, v: string, decode: Decoder, b: seq<byte>)
    requires PlainKey(k) && PlainValue(v) && |v| > 0 && !IsBlank(v[0])
    requires |k| + |v| + 2 <= MaxPos
    requires CaseEqual(k, "secret") && decode(v) == Decoded(b) && |b| > 0
    ensures ReadConfig(Corrected, Opened([Got(k + "=" + v)]), decode) == Ok(Start.cfg.(secret := Some(b)))
  {
    SecretLineRead(Corrected, k, v, decode, b);
    FinalNewlineOptional(Start, k + "=" + v, decode);
  }
}

=== FILE: gate.dfy ===
/**
 The part of main after option parsing: the usage check, read_config, the
 prompt, the one read of the attempt from stdin and its trimming at the
 first CR or LF, the TOTP validation with the fixed policy, the scrubbing
 of the attempt and the secret, and the argv handed to execvp. The
 validator, the clock, stdin and the file system are parameters.
 */
module Gate {
  import opened Common
  import opened CText
  import opened ConfigParse
  import opened SecretGen

  /** OATH_INVALID_OTP of liboath. */
  const InvalidOtp: int := -6

  /** The policy main passes to oath_totp_validate: 30-second steps counted
      from the epoch, and a window of two steps. */
  const TimeStep: nat := 30
  const StartOffset: int := 0
  const Window: nat := 2

  /** sizeof(otp); one byte is kept back for the terminating NUL. */
  const OtpBufSize: nat := 1024
  const OtpReadMax: nat := OtpBufSize - 1

  /** The arguments of one oath_totp_validate call. */
  datatype ValidateCall = ValidateCall(secret: seq<byte>, now: int, step: nat, startOffset: int, window: nat, otp: string)

  type Validator = ValidateCall -> int

  /** How main's getopt loop ends: it runs out of options, having seen the
      last `-c` argument if any; it meets `-g` and leaves through
      generate_random_b32; or it meets an option it does not know. */
  datatype Options =
    | Parsed(configFile: Option<string>, optind: nat)
    | GenerateOpt(arg: string)
    | BadOption

  datatype Failure =
    | InitFailed
    | Usage
    | BadConfig(error: ConfigError)
    | NoAttempt
    | Rejected(status: int)
    | GenFailed(cause: GenError)

  /** What the process ends with: replacing itself by the child, printing a
      generated secret, or exiting with EXIT_FAILURE. */
  datatype Outcome = Exec(argv: seq<Option<string>>) | Printed(line: string) | Fail(failure: Failure)

  /** The attempt buffer and the secret as memset leaves them. */
  datatype Scrubbed = Scrubbed(otp: seq<char>, secret: seq<byte>)

  /** What an observer sees: the prompt, the validation call, the memory
      after scrubbing, and the outcome. */
  datatype Trace = Trace(prompt: Option<string>, call: Option<ValidateCall>, scrubbed: Option<Scrubbed>, outcome: Outcome)

  /** Everything main takes from the world. */
  datatype World = World(
    libInit: bool,
    files: string -> ConfigFile,
    decode: Decoder,
    stdin: ReadResult<char>,
    now: int,
    validate: Validator,
    random: RandomSource,
    encode: Encoder)

  /** `%cOTP: ` with `T` for a TOTP config and `H` for any other. */
  function Prompt(t: OathType): (s: string)
    ensures |s| == 6 && s[1..] == "OTP: "
    ensures s[0] == 'T' <==> t == Totp
    ensures s[0] == 'T' || s[0] == 'H'
  {
    [if t == Totp then 'T' else 'H'] + "OTP: "
  }

  // ------------------------------------------------------------ attempt

  /** The index of the first CR or LF in `s`, or |s|. */
  function FirstCrLf(s: seq<char>): (k: nat)
    ensures k <= |s|
    ensures forall j :: 0 <= j < k ==> s[j] != '\r' && s[j] != '\n'
    ensures k < |s| ==> s[k] == '\r' || s[k] == '\n'
  {
    CrLfFrom(s, 0)
  }

  function CrLfFrom(s: seq<char>, i: nat): (k: nat)
    requires i <= |s|
    ensures i <= k <= |s|
    ensures forall j :: i <= j < k ==> s[j] != '\r' && s[j] != '\n'
    ensures k < |s| ==> s[k] == '\r' || s[k] == '\n'
    decreases |s| - i
  {
    if i == |s| || s[i] == '\r' || s[i] == '\n' then i else CrLfFrom(s, i + 1)
  }

  /** The zero-initialised otp array after read(2) filled its start. */
  function OtpBuffer(data: seq<char>): (b: seq<char>)
    requires |data| <= OtpReadMax
    ensures |b| == OtpBufSize
    ensures b[..|data|] == data
    ensures forall j :: |data| <= j < OtpBufSize ==> b[j] == NUL
  {
    data + Zeros(OtpBufSize - |data|, NUL)
  }

  /** The buffer after the trimming loop over its first `r` bytes. */
  function Trimmed(buf: seq<char>, r: nat): seq<char>
    requires r <= |buf|
  {
    var k := FirstCrLf(buf[..r]);
    if k < r then buf[k := NUL] else buf
  }

  /** The trimming loop: the first CR or LF among the `r` bytes read
      becomes NUL; nothing else changes. */
  method TrimAttempt(buf: seq<char>, r: nat) returns (t: seq<char>)
    requires r <= |buf|
    ensures |t| == |buf|
    ensures var k := FirstCrLf(buf[..r]);
      && (forall j :: 0 <= j < |buf| && j != k ==> t[j] == buf[j])
      && (k < r ==> t[k] == NUL)
      && (k == r ==> t == buf)
    ensures t == Trimmed(buf, r)
  {
    t := buf;
    var i := 0;
    while i < r
      invariant 0 <= i <= r
      invariant t == buf
      invariant forall j :: 0 <= j < i ==> buf[j] != '\r' && buf[j] != '\n'
    {
      if t[i] == '\r' || t[i] == '\n' {
        assert FirstCrLf(buf[..r]) == i by {
          assert forall j :: 0 <= j < i ==> buf[..r][j] == buf[j];
          assert buf[..r][i] == buf[i];
        }
        t := t[i := NUL];
        return;
      }
      i := i + 1;
    }
    assert FirstCrLf(buf[..r]) == r by {
      assert forall j :: 0 <= j < r ==> buf[..r][j] == buf[j];
    }
  }

  /** The attempt oath_totp_validate sees: the C string at the start of the
      trimmed buffer. */
  function Attempt(data: seq<char>): (a: string)
    requires |data| <= OtpReadMax
    ensures |a| <= FirstCrLf(data) && a == data[..|a|]
    ensures forall j :: 0 <= j < |a| ==> a[j] != NUL && a[j] != '\r' && a[j] != '\n'
    ensures |a| == FirstCrLf(data) || data[|a|] == NUL
    ensures |a| < OtpBufSize && Trimmed(OtpBuffer(data), |data|)[|a|] == NUL
  {
    var buf := OtpBuffer(data);
    assert buf[..|data|] == data;
    var t := Trimmed(buf, |data|);
    var a := CString(t, 0);
    AttemptShape(data, buf, t, a);
    a
  }

  lemma AttemptShape(data: seq<char>, buf: seq<char>, t: seq<char>, a: string)
    requires |data| <= OtpReadMax && buf == OtpBuffer(data)
    requires t == Trimmed(buf, |data|) && a == CString(t, 0)
    ensures |a| <= FirstCrLf(data) && a == data[..|a|]
    ensures forall j :: 0 <= j < |a| ==> a[j] != NUL && a[j] != '\r' && a[j] != '\n'
    ensures |a| == FirstCrLf(data) || data[|a|] == NUL
    ensures |a| < OtpBufSize && t[|a|] == NUL
  {
    assert buf[..|data|] == data;
    var k := FirstCrLf(data);
    assert t[k] == NUL;
    assert forall j :: 0 <= j < k ==> t[j] == data[j];
  }

  /** An attempt without NUL bytes is everything before the first CR or LF. */
  lemma AttemptBeforeCrLf(data: seq<char>)
    requires |data| <= OtpReadMax
    requires forall j :: 0 <= j < |data| ==> data[j] != NUL
    ensures Attempt(data) == data[..FirstCrLf(data)]
  {
  }

  // ---------------------------------------------------------------- argv

  /** newargv: argv[optind..argc-1] followed by NULL. */
  function NewArgv(argv: seq<string>, optind: nat): (r: seq<Option<string>>)
    requires optind <= |argv|
  {
    seq(|argv| - optind + 1, i requires 0 <= i <= |argv| - optind =>
      if i < |argv| - optind then Some(argv[optind + i]) else None)
  }

  /** The allocation, the memset to NULL and the copy loop. */
  method BuildArgv(argv: seq<string>, optind: nat) returns (r: seq<Option<string>>)
    requires optind <= |argv|
    ensures |r| == |argv| - optind + 1
    ensures forall i :: 0 <= i < |argv| - optind ==> r[i] == Some(argv[optind + i])
    ensures r[|argv| - optind] == None
    ensures r == NewArgv(argv, optind)
  {
    var n := |argv| - optind;
    r := seq(n + 1, _ => None);
    var i := 0;
    while i < n
      invariant 0 <= i <= n && |r| == n + 1
      invariant forall j :: 0 <= j < i ==> r[j] == Some(argv[optind + j])
      invariant forall j :: i <= j <= n ==> r[j] == None
    {
      r := r[i := Some(argv[optind + i])];
      i := i + 1;
    }
  }

  // ------------------------------------------------------------ the gate

  /** The status main compares: the validator's verdict for a TOTP config,
      OATH_INVALID_OTP for any other. */
  function Verdict(call: Option<ValidateCall>, validate: Validator): int
  {
    if call.Some? then validate(call.value) else InvalidOtp
  }

  /** The test guarding execvp. */
  predicate Accepted(valid: int) {
    valid >= 0 && valid != InvalidOtp
  }

  /** OATH_INVALID_OTP is negative, so the second half of the test is
      redundant: a verdict is accepted exactly when it is non-negative. */
  lemma AcceptedIffNonNegative(valid: int)
    ensures Accepted(valid) <==> valid >= 0
    ensures !Accepted(InvalidOtp)
  {
  }

  /** From the config read to the decision: prompt, one read of at most
      1023 bytes, trimming, validation for TOTP only, scrubbing, and the
      decision. */
  function Decide(cfg: Config, argv: seq<string>, optind: nat, world: World): (t: Trace)
    requires optind <= |argv|
    requires cfg.secret.Some?
    ensures t.prompt == Some(Prompt(cfg.otpType))
    // memory is scrubbed exactly when an attempt was read, and then fully
    ensures t.scrubbed.Some? <==> Clamp(world.stdin, OtpReadMax).Got? && |Clamp(world.stdin, OtpReadMax).data| > 0
    ensures t.scrubbed.Some? ==> t.scrubbed.value == Scrubbed(Zeros(OtpBufSize, NUL), Zeros(|cfg.secret.value|, 0 as byte))
    ensures t.scrubbed.None? ==> t.call.None? && t.outcome == Fail(NoAttempt)
    // only a TOTP config is validated, and only its accepted verdict runs the child
    ensures t.call.Some? <==> cfg.otpType == Totp && t.scrubbed.Some?
    ensures t.outcome.Exec? <==> cfg.otpType == Totp && t.call.Some? && Accepted(world.validate(t.call.value))
    ensures t.outcome.Exec? ==> t.outcome == Exec(NewArgv(argv, optind))
    ensures t.scrubbed.Some? && !t.outcome.Exec? ==> t.outcome == Fail(Rejected(Verdict(t.call, world.validate)))
    ensures t.scrubbed.Some? && cfg.otpType != Totp ==> t.outcome == Fail(Rejected(InvalidOtp))
  {
    var prompt := Some(Prompt(cfg.otpType));
    match Clamp(world.stdin, OtpReadMax)
    case ReadFailed => Trace(prompt, None, None, Fail(NoAttempt))
    case Got(data) =>
      if |data| == 0 then Trace(prompt, None, None, Fail(NoAttempt))
      else
        var call :=
          if cfg.otpType == Totp
          then Some(ValidateCall(cfg.secret.value, world.now, TimeStep, StartOffset, Window, Attempt(data)))
          else None;
        var valid := Verdict(call, world.validate);
        var scrubbed := Scrubbed(Zeros(OtpBufSize, NUL), Zeros(|cfg.secret.value|, 0 as byte));
        Trace(prompt, call, Some(scrubbed), if Accepted(valid) then Exec(NewArgv(argv, optind)) else Fail(Rejected(valid)))
  }

  /** main once getopt has finished with the options it found. Without a
      config file or a program there is only the usage message; a config that
      does not read stops the run before the prompt; otherwise the prompt
      names the configured type. */
  function Authorize(mode: ScanMode, argv: seq<string>, configFile: Option<string>, optind: nat, world: World): (t: Trace)
    requires optind <= |argv|
    ensures configFile.None? || optind == |argv| ==> t == Trace(None, None, None, Fail(Usage))
    ensures configFile.Some? && optind < |argv| ==>
              match ReadConfig(mode, world.files(configFile.value), world.decode)
              case Err(e) => t == Trace(None, None, None, Fail(BadConfig(e)))
              case Ok(c) => t.prompt == Some(Prompt(c.otpType))
  {
    if configFile.None? || optind == |argv| then Trace(None, None, None, Fail(Usage))
    else
      match ReadConfig(mode, world.files(configFile.value), world.decode)
      case Err(e) => Trace(None, None, None, Fail(BadConfig(e)))
      case Ok(cfg) => Decide(cfg, argv, optind, world)
  }

  /** The length `-g` asks for: converted as written in the as-written
      mode and with the range check in the corrected one. */
  function LengthArg(mode: ScanMode, arg: string): (r: Result<int, GenError>)
    ensures r.Ok? ==> -0x8000_0000 <= r.value <= IntMax
    ensures r.Err? ==> r.error == BadLength(arg)
    ensures mode == AsWritten ==> r == GenLength(arg)
    ensures mode == Corrected ==> r == GenLengthChecked(arg)
  {
    if mode == AsWritten then GenLength(arg) else GenLengthChecked(arg)
  }

  /** `-g 4294967306`: as written the length wraps around to 10; the
      corrected conversion refuses it. */
  lemma LengthArgWrapsAround()
    ensures LengthArg(AsWritten, Decimal(4294967306)) == Ok(10)
    ensures LengthArg(Corrected, Decimal(4294967306)) == Err(BadLength(Decimal(4294967306)))
  {
    LengthWrapsAround();
    CheckedLengthExact(4294967306);
  }

  /** The whole of main. */
  method RunOathExec(mode: ScanMode, argv: seq<string>, options: Options, world: World) returns (t: Trace)
    requires options.Parsed? ==> options.optind <= |argv|
    ensures !world.libInit ==> t.outcome == Fail(InitFailed)
    ensures world.libInit && options.BadOption? ==> t.outcome == Fail(Usage)
    ensures world.libInit && options.Parsed? ==> t == Authorize(mode, argv, options.configFile, options.optind, world)
    ensures t.outcome.Printed? ==> options.GenerateOpt? && t.call.None?
    ensures t.outcome.Exec? ==> options.Parsed? && t.call.Some?
    // `-g`: a refused length is a usage error; otherwise a line is printed
    // exactly when generate_random_b32 succeeds, and its failure is passed on
    ensures world.libInit && options.GenerateOpt? && LengthArg(mode, options.arg).Err? ==>
              t.outcome == Fail(Usage)
    ensures world.libInit && options.GenerateOpt? && LengthArg(mode, options.arg).Ok? ==>
              var len := LengthArg(mode, options.arg).value;
              var random := if world.random.Opened? then Stream(world.random.chunks) else [];
              && (t.outcome.Printed? <==>
                    0 < len <= BufLen && world.random.Opened? && len <= |random| &&
                    world.encode(random[..len]).Encoded?)
              && (t.outcome.Printed? ==> t.outcome.line == world.encode(random[..len]).text + "\n")
              && ((len < 0 || len > BufLen) ==> t.outcome == Fail(GenFailed(TooLong)))
              && (0 <= len <= BufLen && world.random.Unopenable? ==> t.outcome == Fail(GenFailed(CantOpenRandom)))
              && (0 < len <= BufLen && world.random.Opened? && len > |random| ==>
                    t.outcome == Fail(GenFailed(Stop(world.random.chunks))))
    ensures world.libInit && options.GenerateOpt? ==> t.prompt.None? && t.call.None? && t.scrubbed.None?
  {
    if !world.libInit {
      return Trace(None, None, None, Fail(InitFailed));
    }
    match options
    case BadOption =>
      return Trace(None, None, None, Fail(Usage));
    case GenerateOpt(arg) =>
      var len := LengthArg(mode, arg);
      if len.Err? {
        return Trace(None, None, None, Fail(Usage));
      }
      var line := Generate(len.value, world.random, world.encode);
      if line.Err? {
        return Trace(None, None, None, Fail(GenFailed(line.error)));
      }
      return Trace(None, None, None, Printed(line.value));
    case Parsed(configFile, optind) =>
      t := AuthorizeSteps(mode, argv, configFile, optind, world);
      ExecNeedsCall(mode, argv, configFile, optind, world);
  }

  /** Authorize as main executes it, with the trimming and copy loops. */
  method AuthorizeSteps(mode: ScanMode, argv: seq<string>, configFile: Option<string>, optind: nat, world: World)
    returns (t: Trace)
    requires optind <= |argv|
    ensures t == Authorize(mode, argv, configFile, optind, world)
  {
    if configFile.None? || optind == |argv| {
      return Trace(None, None, None, Fail(Usage));
    }
    var cfg := ReadConfig(mode, world.files(configFile.value), world.decode);
    if cfg.Err? {
      return Trace(None, None, None, Fail(BadConfig(cfg.error)));
    }
    var c := cfg.value;
    var prompt := Some(Prompt(c.otpType));
    var input := Clamp(world.stdin, OtpReadMax);
    if input.ReadFailed? || |input.data| == 0 {
      return Trace(prompt, None, None, Fail(NoAttempt));
    }
    var data := input.data;
    var trimmed := TrimAttempt(OtpBuffer(data), |data|);
    var call: Option<ValidateCall> := None;
    if c.otpType == Totp {
      call := Some(ValidateCall(c.secret.value, world.now, TimeStep, StartOffset, Window, CString(trimmed, 0)));
    }
    var valid := Verdict(call, world.validate);
    var scrubbed := Scrubbed(Zeros(OtpBufSize, NUL), Zeros(|c.secret.value|, 0 as byte));
    if Accepted(valid) {
      var newArgv := BuildArgv(argv, optind);
      t := Trace(prompt, call, Some(scrubbed), Exec(newArgv));
    } else {
      t := Trace(prompt, call, Some(scrubbed), Fail(Rejected(valid)));
    }
  }

  // --------------------------------------------------------- properties

  /** The child runs exactly when a TOTP config was read, an attempt was
      read, and the validator accepted it under the fixed policy. */
  lemma {:induction false} ExecIffAccepted(mode: ScanMode, argv: seq<string>, configFile: Option<string>, optind: nat, world: World)
    requires optind <= |argv|
    ensures var t := Authorize(mode, argv, configFile, optind, world);
      t.outcome.Exec? <==>
        && configFile.Some? && optind < |argv|
        && ReadConfig(mode, world.files(configFile.value), world.decode).Ok?
        && ReadConfig(mode, world.files(configFile.value), world.decode).value.otpType == Totp
        && var cfg := ReadConfig(mode, world.files(configFile.value), world.decode).value;
        && Clamp(world.stdin, OtpReadMax).Got? && |Clamp(world.stdin, OtpReadMax).data| > 0
        && var data := Clamp(world.stdin, OtpReadMax).data;
        && Accepted(world.validate(ValidateCall(cfg.secret.value, world.now, 30, 0, 2, Attempt(data))))
  {
    var t := Authorize(mode, argv, configFile, optind, world);
    if configFile.Some? && optind < |argv| {
      var r := ReadConfig(mode, world.files(configFile.value), world.decode);
      if r.Ok? {
        var c := Clamp(world.stdin, OtpReadMax);
        if r.value.otpType == Totp && c.Got? && |c.data| > 0 {
          TotpAttemptValidated(mode, argv, configFile, optind, world);
        }
      }
    }
  }

  /** With a TOTP config and a non-empty read, the validator is consulted
      on the trimmed attempt under the fixed policy, and its verdict alone
      decides: the child runs on acceptance, otherwise the status is
      reported. */
  lemma {:induction false} TotpAttemptValidated(mode: ScanMode, argv: seq<string>, configFile: Option<string>, optind: nat, world: World)
    requires optind <= |argv|
    requires configFile.Some? && optind < |argv|
    requires var r := ReadConfig(mode, world.files(configFile.value), world.decode);
      r.Ok? && r.value.otpType == Totp
    requires var c := Clamp(world.stdin, OtpReadMax); c.Got? && |c.data| > 0
    ensures var t := Authorize(mode, argv, configFile, optind, world);
      var cfg := ReadConfig(mode, world.files(configFile.value), world.decode).value;
      var data := Clamp(world.stdin, OtpReadMax).data;
      var call := ValidateCall(cfg.secret.value, world.now, 30, 0, 2, Attempt(data));
      && t.call == Some(call)
      && t.prompt == Some(Prompt(Totp))
      && t.scrubbed.Some?
      && (t.outcome == Exec(NewArgv(argv, optind)) <==> Accepted(world.validate(call)))
      && (!Accepted(world.validate(call)) ==> t.outcome == Fail(Rejected(world.validate(call))))
  {
  }

  /** The validator is only ever called with the configured secret, the
      clock, steps of 30 seconds from 0, a window of 2, and the trimmed
      attempt; and only after one non-empty read. */
  lemma ValidationPolicy(mode: ScanMode, argv: seq<string>, configFile: Option<string>, optind: nat, world: World)
    requires optind <= |argv|
    ensures var t := Authorize(mode, argv, configFile, optind, world);
      t.call.Some? ==>
        && configFile.Some?
        && var r := ReadConfig(mode, world.files(configFile.value), world.decode);
        && r.Ok? && r.value.otpType == Totp
        && world.stdin.Got? && |world.stdin.data| > 0
        && var data := Clamp(world.stdin, OtpReadMax).data;
        && t.call.value == ValidateCall(r.value.secret.value, world.now, 30, 0, 2, Attempt(data))
  {
  }

  /** The argv handed to execvp is the tail of the program's argv from
      `optind`, in order, ending in NULL; its first entry is the program
      to run. */
  lemma ExecArgv(mode: ScanMode, argv: seq<string>, configFile: Option<string>, optind: nat, world: World)
    requires optind <= |argv|
    ensures var t := Authorize(mode, argv, configFile, optind, world);
      t.outcome.Exec? ==>
        && optind < |argv|
        && |t.outcome.argv| == |argv| - optind + 1
        && t.outcome.argv[0] == Some(argv[optind])
        && (forall i :: 0 <= i < |argv| - optind ==> t.outcome.argv[i] == Some(argv[optind + i]))
        && t.outcome.argv[|argv| - optind] == None
  {
  }

  /** Whenever the validator was called, the child runs, or the attempt was
      rejected as invalid, the run scrubs memory: the 1024-byte attempt
      buffer and the secret are left all zeros, the secret as long as the one
      that was validated. */
  lemma ScrubbedBeforeDecision(mode: ScanMode, argv: seq<string>, configFile: Option<string>, optind: nat, world: World)
    requires optind <= |argv|
    ensures var t := Authorize(mode, argv, configFile, optind, world);
      && (t.call.Some? || t.outcome.Exec? || t.outcome == Fail(Rejected(InvalidOtp)) ==> t.scrubbed.Some?)
      && (configFile.Some? && optind < |argv|
          && ReadConfig(mode, world.files(configFile.value), world.decode).Ok?
          && Clamp(world.stdin, OtpReadMax).Got? && |Clamp(world.stdin, OtpReadMax).data| > 0
          ==> t.scrubbed.Some?)
      && (t.scrubbed.Some? ==>
            && |t.scrubbed.value.otp| == OtpBufSize
            && (forall j :: 0 <= j < OtpBufSize ==> t.scrubbed.value.otp[j] == NUL)
            && (forall j :: 0 <= j < |t.scrubbed.value.secret| ==> t.scrubbed.value.secret[j] == 0)
            && (t.call.Some? ==> |t.scrubbed.value.secret| == |t.call.value.secret|))
  {
  }

  /** A config without an accepted `type` line never runs the child, and
      the validator is not even consulted. */
  lemma UnsetTypeNeverExecs(mode: ScanMode, argv: seq<string>, configFile: Option<string>, optind: nat, world: World)
    requires optind <= |argv|
    requires configFile.Some?
    requires var r := ReadConfig(mode, world.files(configFile.value), world.decode);
      r.Ok? && r.value.otpType == Unset
    ensures var t := Authorize(mode, argv, configFile, optind, world);
      !t.outcome.Exec? && t.call.None?
    // an attempt that was read is still scrubbed and rejected as invalid
    ensures var t := Authorize(mode, argv, configFile, optind, world);
      optind < |argv| && Clamp(world.stdin, OtpReadMax).Got? && |Clamp(world.stdin, OtpReadMax).data| > 0 ==>
        && t.prompt == Some(Prompt(Unset))
        && t.scrubbed.Some?
        && t.outcome == Fail(Rejected(InvalidOtp))
  {
    ExecIffAccepted(mode, argv, configFile, optind, world);
  }

  /** A failed or empty read of the attempt ends the run before any
      validation, and (as the code stands) without scrubbing the secret. */
  lemma NoAttemptNoValidation(mode: ScanMode, argv: seq<string>, configFile: Option<string>, optind: nat, world: World)
    requires optind <= |argv|
    requires world.stdin.ReadFailed? || world.stdin == Got([])
    ensures var t := Authorize(mode, argv, configFile, optind, world);
      t.call.None? && t.scrubbed.None? && !t.outcome.Exec?
  {
  }

  lemma ExecNeedsCall(mode: ScanMode, argv: seq<string>, configFile: Option<string>, optind: nat, world: World)
    requires optind <= |argv|
    ensures var t := Authorize(mode, argv, configFile, optind, world);
      t.outcome.Exec? ==> t.call.Some?
  {
    ExecIffAccepted(mode, argv, configFile, optind, world);
  }
}

=== FILE: secretgen.dfy ===
/**
 `oath-exec -g bytes`: the conversion of the option argument to a length,
 the bound check, the loop that reads /dev/random until `len` bytes are
 buffered, and the base32 line printed at the end. The base32 encoder of
 liboath is a parameter.
 */
module SecretGen {
  import opened Common
  import opened CText

  /** sizeof(buf) in generate_random_b32. */
  const BufLen: nat := 1024

  const IntMax: int := 0x7fff_ffff

  datatype EncodeResult = Encoded(text: string) | EncodeFailed(code: int)

  /** oath_base32_encode applied to the buffered bytes. */
  type Encoder = seq<byte> -> EncodeResult

  /** /dev/random: it cannot be opened, or it answers a sequence of reads. */
  datatype RandomSource = Unopenable | Opened(chunks: seq<ReadResult<byte>>)

  datatype GenError =
    | BadLength(arg: string)
    | TooLong
    | CantOpenRandom
    | CantReadRandom
    | RandomEof
    | CantEncode(code: int)

  // ---------------------------------------------------------- -g argument

  /** main's handling of `-g arg`: strtoul in base 10, rejected when errno
      is set or bytes follow the number, then stored into an int. An empty
      argument converts nothing, leaves `end` at the terminating NUL and is
      accepted as 0. */
  function GenLength(arg: string): (r: Result<int, GenError>)
    ensures r.Ok? <==> !Strtoul(arg).rangeError && Strtoul(arg).end == |arg|
    ensures r.Ok? ==> -0x8000_0000 <= r.value <= IntMax
    ensures r.Ok? ==> (r.value - Strtoul(arg).value) % 0x1_0000_0000 == 0
    ensures r.Err? ==> r.error == BadLength(arg)
  {
    var c := Strtoul(arg);
    if c.rangeError || c.end != |arg| then Err(BadLength(arg)) else Ok(ToCInt(c.value))
  }

  /** The conversion as its errno check evidently intends: a number that
      does not fit an int is refused instead of being cut to 32 bits. */
  function GenLengthChecked(arg: string): (r: Result<int, GenError>)
    ensures r.Ok? <==> !Strtoul(arg).rangeError && Strtoul(arg).end == |arg| && Strtoul(arg).value <= IntMax
    ensures r.Ok? ==> r.value == Strtoul(arg).value
    ensures r.Err? ==> r.error == BadLength(arg)
  {
    var c := Strtoul(arg);
    if c.rangeError || c.end != |arg| || c.value > IntMax then Err(BadLength(arg)) else Ok(c.value)
  }

  /** As written: `-g 4294967306` passes the errno check and is stored as
      the int 10, so ten random bytes are generated. */
  lemma LengthWrapsAround()
    ensures GenLength(Decimal(4294967306)) == Ok(10)
  {
    StrtoulDecimal(4294967306);
  }

  /** Corrected: the length of `-g n` is exactly n for every n an int
      holds, and every larger n is refused. */
  lemma CheckedLengthExact(n: nat)
    requires n <= ULongMax
    ensures n <= IntMax ==> GenLengthChecked(Decimal(n)) == Ok(n)
    ensures n > IntMax ==> GenLengthChecked(Decimal(n)).Err?
  {
    StrtoulDecimal(n);
  }

  // ---------------------------------------------------------- length bound

  /** `len > sizeof(buf)`: the int is converted to the 64-bit size_t before
      the comparison, so a negative length counts as huge. */
  function ExceedsBuffer(len: int): (b: bool)
    requires -0x8000_0000 <= len <= IntMax
    ensures b <==> len < 0 || len > BufLen
  {
    len % ULongModulus > BufLen
  }

  // ------------------------------------------------------------ read loop

  /** The bytes /dev/random delivers before the first read that fails or
      returns nothing. */
  function Stream(chunks: seq<ReadResult<byte>>): seq<byte>
  {
    if chunks == [] then []
    else match chunks[0]
      case ReadFailed => []
      case Got(d) => if d == [] then [] else d + Stream(chunks[1..])
  }

  /** Why the stream ends: a failed read, or one that returns nothing (also
      every read past the sequence). */
  function Stop(chunks: seq<ReadResult<byte>>): (e: GenError)
    ensures e == CantReadRandom || e == RandomEof
  {
    if chunks == [] then RandomEof
    else match chunks[0]
      case ReadFailed => CantReadRandom
      case Got(d) => if d == [] then RandomEof else Stop(chunks[1..])
  }

  /** The do-while of generate_random_b32: read `len - pos` bytes at
      `buf + pos` until `pos` reaches `len`; a failed read or one returning
      0 ends it with an error. The first read happens even when `len` is 0,
      asks for nothing, and so reports end of file. */
  method ReadRandom(len: nat, chunks: seq<ReadResult<byte>>) returns (r: Result<seq<byte>, GenError>)
    requires len <= BufLen
    ensures r.Ok? <==> 0 < len <= |Stream(chunks)|
    ensures r.Ok? ==> r.value == Stream(chunks)[..len]
    ensures r.Err? && len > 0 ==> r.error == Stop(chunks)
    ensures r.Err? ==> r.error == CantReadRandom || r.error == RandomEof
    ensures len == 0 ==> r == Err(if chunks != [] && chunks[0].ReadFailed? then CantReadRandom else RandomEof)
  {
    var buf: seq<byte> := [];
    var k := 0;
    while true
      invariant 0 <= k <= |chunks|
      invariant |buf| < len || (k == 0 && buf == [])
      invariant Stream(chunks) == buf + Stream(chunks[k..])
      invariant len > 0 ==> Stop(chunks) == Stop(chunks[k..])
      decreases |chunks| - k
    {
      var c := if k < |chunks| then Clamp(chunks[k], len - |buf|) else Got([]);
      if c.ReadFailed? {
        if len > 0 {
          assert Stream(chunks[k..]) == [];
        }
        return Err(CantReadRandom);
      }
      if |c.data| == 0 {
        if len > 0 {
          assert Stream(chunks[k..]) == [] && Stop(chunks[k..]) == RandomEof;
        }
        return Err(RandomEof);
      }
      var d := chunks[k].data;
      StreamCons(chunks, k);
      if |buf| + |c.data| == len {
        StreamPrefix(Stream(chunks), buf, d, Stream(chunks[k + 1..]), |c.data|);
        return Ok(buf + c.data);
      }
      StreamShift(Stream(chunks), buf, d, Stream(chunks[k + 1..]));
      buf := buf + d;
      k := k + 1;
    }
  }

  /** A read that delivers bytes contributes them to the stream and does
      not end it. */
  lemma StreamCons(chunks: seq<ReadResult<byte>>, k: nat)
    requires k < |chunks| && chunks[k].Got? && chunks[k].data != []
    ensures Stream(chunks[k..]) == chunks[k].data + Stream(chunks[k + 1..])
    ensures Stop(chunks[k..]) == Stop(chunks[k + 1..])
  {
    assert chunks[k..][1..] == chunks[k + 1..];
  }

  lemma StreamShift(all: seq<byte>, buf: seq<byte>, d: seq<byte>, rest: seq<byte>)
    requires all == buf + (d + rest)
    ensures all == (buf + d) + rest
  {
  }

  lemma StreamPrefix(all: seq<byte>, buf: seq<byte>, d: seq<byte>, rest: seq<byte>, m: nat)
    requires all == buf + (d + rest) && m <= |d|
    ensures all[..|buf| + m] == buf + d[..m]
  {
    assert forall j :: 0 <= j < |buf| + m ==> all[j] == (buf + d[..m])[j];
  }

  // ------------------------------------------------------------ generator

  /** generate_random_b32(len): on success the line printed on stdout. */
  method Generate(len: int, source: RandomSource, encode: Encoder) returns (r: Result<string, GenError>)
    requires -0x8000_0000 <= len <= IntMax
    ensures r.Ok? <==>
              && 0 < len <= BufLen && source.Opened?
              && len <= |Stream(source.chunks)|
              && encode(Stream(source.chunks)[..len]).Encoded?
    ensures r.Ok? ==> r.value == encode(Stream(source.chunks)[..len]).text + "\n"
    ensures (len < 0 || len > BufLen) ==> r == Err(TooLong)
    ensures 0 <= len <= BufLen && source.Unopenable? ==> r == Err(CantOpenRandom)
    ensures len == 0 && source.Opened? ==>
              r == Err(if source.chunks != [] && source.chunks[0].ReadFailed? then CantReadRandom else RandomEof)
    ensures 0 < len <= BufLen && source.Opened? && len > |Stream(source.chunks)| ==>
              r == Err(Stop(source.chunks))
    ensures 0 < len <= BufLen && source.Opened? && len <= |Stream(source.chunks)| ==>
              var e := encode(Stream(source.chunks)[..len]);
              e.EncodeFailed? ==> r == Err(CantEncode(e.code))
  {
    if ExceedsBuffer(len) {
      return Err(TooLong);
    }
    if source.Unopenable? {
      return Err(CantOpenRandom);
    }
    var bytes := ReadRandom(len, source.chunks);
    if bytes.Err? {
      return Err(bytes.error);
    }
    match encode(bytes.value)
    case EncodeFailed(code) =>
      return Err(CantEncode(code));
    case Encoded(text) =>
      return Ok(text + "\n");
  }
}
